=== FILE: README.md ===
# Puzzle tick engine — a Dafny model

The game is a block puzzle on an 8x8 board. A user's script calls
`moveRight/Up/Left/Down`, `stay`, the look-ahead `isObstacleRight/Left/Up/Down`
and the bounded loop `repeat`. Each call drives a discrete-tick engine
(`createTick`). The engine moves the player, cycles the pistons through a
five-slot phase, lets slide floors carry the player, and logs one list of
move-plan events per tick, plus a snapshot of the energy budget. The renderer
replays that log. The same engine is copied into the three game maps
(`game/map1.ts`, `game/map2.ts`, `game/map3.ts`). An older, cut-down engine
sits in the root `map1.ts`.

The model is functional. The source's module-level `timer`, `movePlan` and
`energyHistory` become the fields of an immutable `Session`. Every engine
operation is a pure function of a `World` (the object list plus the phase).

| module | file | what it holds |
|---|---|---|
| `GameObject` | game_object.dfy | positions, directions, the object and event unions, the five constructors |
| `Engine` | engine.dfy | the tick: directional step, phase counter, goal check, the walk over the objects |
| `EngineLaws` | engine_laws.dfy | whole-tick properties: piston events, redirections, event order, phase cycle |
| `Obstacle` | obstacle.dfy | `isObstacle` and the four look-aheads |
| `Repeat` | repeat.dfy | `repeat`, capped at ten iterations |
| `Session` | session.dfy | the energy ledger, the move-plan log, the wrappers, `getSimulateResult` |
| `Legacy` | legacy.dfy | the older engine of the root `map1.ts` |
| `Traces` | traces.dfy | the recorded runs of game maps 1 and 2, replayed |
| `Map3Run` | map3_run.dfy | the recorded run of game map 3, replayed |

The three game maps differ in two ways. A `Variant` value records both:

- In game map 1, `isObstacle` ignores boxes. In game maps 2 and 3 it counts them.
- In game map 1, `stay()` only repeats the last energy value. In game maps 2 and 3 it runs and logs a stay tick.

Game map 3's engine is the reference for the members shared by all three.

Two facts about the code shape the model:

- `stay()` is never energy-gated and spends no energy (`game/map3.ts:371-374`; `Session.StayCommand`).
- Piston pushes and slide floors are not bounds-checked, so the player can leave the board (`game/map3.ts:190`; `EngineLaws.PushCanLeaveBoard`).

## Model

| member | source | states |
|---|---|---|
| GameObject.StepIsUnit | game/map3.ts:43-52 | a directional step moves exactly one unit along one axis (`up` is +z), and stepping back the opposite way returns to the start |
| GameObject.FailureFor | game/map3.ts:54-62 | a refused step is reported as `failure-` followed by the operation's own name, which is never `move`, `start` or `success` |
| GameObject.ActionNamesDistinct | game/gameObject.ts:43-60 | the seven player actions have pairwise distinct wire names; the failure actions are exactly the four `failure-<direction>` ones |
| GameObject.CreateGoal | game/gameObject.ts:76-82 | stores the cell verbatim, tags the object `goal`, and builds its id as `goal-` followed by the random suffix |
| GameObject.CreatePlayer | game/gameObject.ts:84-90 | stores the cell verbatim, tags the object `player`, and builds its id as `player-` followed by the random suffix |
| GameObject.CreatePiston | game/gameObject.ts:92-104 | stores the cell and direction; for any random draw in [0,1) the phase slot is in 1..4, so no piston is ever extended at phase 0 |
| GameObject.CreateSlideFloor | game/gameObject.ts:106-117 | stores the cell and direction, tags the object `slideFloor`, and builds its id from the tag and the suffix |
| GameObject.CreateBox | game/gameObject.ts:119-128 | stores the cell verbatim, tags the object `box`, and builds its id from the tag and the suffix |
| GameObject.PistonSlotsExactlyOneToFour | game/gameObject.ts:102 | `floor(random * 4) + 1` reaches every slot 1..4 for some draw and no other slot |
| GameObject.TagsKeepKindsApart | game/gameObject.ts:76-128 | two objects of different kinds never share an id, whatever their random suffixes |
| Engine.PlayerIndex | game/map3.ts:40 | the engine acts on the first object of type `player`: none before it is a player |
| Engine.WithPlayerAt | game/map3.ts:177 | writing the player's new position back changes that one position and nothing else in the object list |
| Engine.Blocked | game/map3.ts:65-98 | a step target is refused exactly when some object other than a goal or slide floor stands on it, or an extended piston's head covers it |
| Engine.TickMove | game/map3.ts:43-110 | one event for the player; `move` to the target exactly when the target is on the board and unblocked; otherwise `failure-<op>` at the unchanged cell with the world unchanged; the phase never changes |
| Engine.NextPhase | game/map3.ts:114-117 | the phase counter steps 0,1,2,3,4 and back to 0, and never stays put |
| Engine.GoalAt | game/map3.ts:120-131 | the goal check succeeds exactly when some goal sits on the player's cell |
| Engine.SettleOne | game/map3.ts:136-223 | only a slide floor under the player sets the floor flag, and only when it is unset; an in-phase piston whose head covers the player, or an unused floor under them, moves them one cell along its facing, and nothing else moves them; every player event it logs carries the cell the player ends on |
| Engine.Settle | game/map3.ts:133-225 | once a slide floor has acted, the flag stays set for the rest of the walk, so no second floor acts in the same tick |
| Engine.TickStay | game/map3.ts:114-131 | the phase advances first; a player on a goal at the start of the tick gets exactly one `success` event and nothing else changes |
| Engine.Tick | game/map3.ts:38-227 | only a stay tick moves the phase, and a tick changes nothing but the player's position |
| EngineLaws.PhaseCycles | game/map2.ts:107-110 | from any phase in 0..4, n stay ticks land on (phase + n) mod 5 |
| EngineLaws.SettleAppend | game/map3.ts:136-223 | the walk is a left fold over the objects in registration order |
| EngineLaws.SettlePistonEvents | game/map3.ts:140-192 | the piston events of a walk are exactly one per piston, in registration order: `activate` when the phase is its slot, `deactivate` otherwise |
| EngineLaws.SettleMoveCount | game/map3.ts:193-219 | the walk emits one player `move` per activation, plus exactly one more when a slide floor acted |
| EngineLaws.SettleWellOrdered | game/map3.ts:178-189 | every player event of the walk is a `move` of the player, and every `activate` comes right after a player `move` |
| EngineLaws.SettleOnlyMachinery | game/map3.ts:136-223 | over a whole walk, only a slide floor can set the floor flag, and only a piston or a slide floor can move the player |
| EngineLaws.SettleReplays | game/map3.ts:151-217 | following the player events a walk logs, from the cell the walk started on, ends on the cell the walk leaves the player on |
| EngineLaws.TickReplays | game/map3.ts:38-227 | for every tick, directional or stay, replaying its player events from the player's cell before the tick gives the player's cell after it |
| EngineLaws.SettleInert | game/map3.ts:220-222 | goals, boxes and players add no events and move no one |
| EngineLaws.StayTickEvents | game/map3.ts:114-225 | `success` appears exactly when the player starts on a goal; otherwise the pistons report in order, and the player moves once per activation plus once more exactly when a slide floor acted during the walk |
| EngineLaws.StayTickPistonEventCount | game/map3.ts:140-192 | a stay tick off the goal emits exactly as many piston events as there are pistons |
| EngineLaws.StayTickWithoutMachinery | game/map1.ts:120-212 | with only goals and boxes besides the player, a stay tick off the goal emits nothing and moves no one |
| EngineLaws.SettleStill | game/map3.ts:136-223 | with no piston in phase, and with the floor flag already set or no floor under the player, the walk leaves the player and the flag as they were |
| EngineLaws.StayTickFloorActs | game/map3.ts:193-219 | with no piston in phase, a stay tick off the goal carries the player one cell along the facing of the first slide floor under them |
| EngineLaws.PushCanLeaveBoard | game/map3.ts:150-191 | a piston push is not bounds-checked: some tick pushes a player on the board off it |
| Obstacle.IsObstacle | game/map3.ts:284-313 | a piston blocks its own cell and, when the phase is its slot, its head cell; a box blocks its cell only where boxes count; goals, slide floors and players never block |
| Obstacle.AnyObstacle | game/map3.ts:316-325 | the look-ahead scan reports an obstacle exactly when some object with a different id blocks the cell |
| Obstacle.IsObstacleToward | game/map3.ts:316-358 | `isObstacleX` tests the cell next to the player, and only that cell |
| Obstacle.ObstacleRefusesStep | game/map3.ts:284-313 | whatever the look-ahead calls an obstacle, in either variant, the engine refuses to step onto |
| Obstacle.ObstacleExactWithBoxes | game/map2.ts:277-306 | where boxes count, the look-ahead on a board cell is exact: it reports an obstacle exactly when the step would fail |
| Obstacle.BoxInvisibleWhenBoxesIgnored | game/map1.ts:271-293 | where boxes are ignored, the look-ahead can miss a box that the engine still refuses |
| Repeat.RepeatFrom | game/map3.ts:363-369 | the loop from iteration `count` on stops at the cap or at the first state whose condition fails |
| Repeat.Repeat | game/map3.ts:363-369 | the action runs at most ten times, only from states where the condition held, and the loop stops at the first failing condition below the cap |
| Repeat.RepeatPreserves | game/map2.ts:356-362 | any invariant the action preserves, the loop preserves |
| Repeat.RepeatRunsExactly | game/map3.ts:363-369 | a condition that holds on n states in a row and then fails, with n up to ten, runs the action exactly n times |
| Session.CreateStart | game/map3.ts:235-244 | the session starts on the objects exactly as loaded, at phase 0; the log is one entry holding one `start` event at the player's loaded cell; the energy history is the budget alone |
| Session.MoveCommand | game/map3.ts:247-282 | no-op when the last energy value is at most 0; otherwise two log entries (the step's single player event, then a stay tick) and two energy entries both one below the last value, whether or not the step succeeded |
| Session.StayCommand | game/map3.ts:371-374 | never gated and never spends; repeats the last energy value; in game maps 2 and 3 it logs one stay tick, and in game map 1 it neither ticks nor logs |
| Session.MoveCommandLogsTicks | game/map3.ts:246-282 | with energy left, the two log entries a move appends are exactly the directional tick's events and then the stay tick's events, and the world is the one the stay tick leaves |
| Session.StayCommandLogsTick | game/map3.ts:371-374 | where `stay()` ticks, the entry it appends is exactly the stay tick's events, and the world is the one that tick leaves |
| Session.LookAhead | game/map3.ts:316-358 | `isObstacleX` of a session: whatever it reports as an obstacle, the move that way fails; where boxes count and the cell is on the board, it reports one exactly when that move fails |
| Session.ApplyKeepsInvariant | game/map3.ts:247-282 | every command keeps the start entry first, only moves the player, never raises energy, and keeps energy non-negative from a non-negative budget |
| Session.RunKeepsInvariant | game/map3.ts:371-374 | over whole scripts: the two logs keep the same length in the maps whose `stay()` ticks, and energy never rises nor drops below 0 |
| Session.ExhaustedMovesAreNoOps | game/map3.ts:247-250 | once the budget is spent, any sequence of moves changes nothing |
| Session.FindById | game/map3.ts:381 | finds the first event carrying the id, or reports that none does |
| Session.GetSimulateResult | game/map3.ts:378-389 | puts the player back on the cell of its `start` event, then returns the objects with the player appended once more, together with both logs |
| Session.SnapshotRestoresStart | game/map2.ts:371-382 | after any script run from `createStart`, the snapshot shows the objects exactly as registered, followed by the player at its start cell |
| Legacy.LegacyBlocked | map1.ts:45-55 | the old engine refuses a cell exactly when some non-goal object stands on it; slide floors are not exempt, and there is no piston-head rule |
| Legacy.LegacyTickMove | map1.ts:23-66 | one event; `move` to the target exactly when it is on the board and free; otherwise `failure-<op>` at the unchanged cell, with nothing changed |
| Legacy.LegacyTickStay | map1.ts:68-96 | one `success` exactly when the player is on a goal, otherwise no events; the write-back of the player's cell on a goal leaves the objects exactly as they were |
| Legacy.LegacyMove | map1.ts:105-120 | every `moveX` appends exactly two ticks: the step, then the stay tick |
| Legacy.LegacyMoveLogsStep | map1.ts:105-108 | the first entry a `moveX` appends is exactly the step's event, and the objects are the ones the step leaves |
| Legacy.LegacyStay | map1.ts:122-124 | `stay()` runs the stay tick and drops its events; the session after it is the session before it |
| Legacy.LegacyAgreesWithoutMachinery | map1.ts:16-98 | on boards of goals and boxes only, the old engine and the game maps' engine agree tick for tick |
| Traces.Map1Trace | game/map1.ts:372-494 | the default script of game map 1 reproduces the recorded log: the step into the box at (3,4) fails, and energy reads 5,4,4,3,3,2,2,1,1 |
| Traces.Map2Trace | game/map2.ts:384-585 | the default script of game map 2 reproduces the recorded log: the loop never runs, the piston pushes the player from (3,3) to (3,2), the last step fails against the box, and energy reads 7,6,6,5,5,4,4 |
| Map3Run.Map3Loop | game/map3.ts:394-396 | the recorded `repeat(() => !isObstacleRight(), stay)` rides the conveyor for exactly three iterations |
| Map3Run.Map3Trace | game/map3.ts:391-748 | the default script of game map 3 reproduces the recorded log, with energy 4,3,3,3,3,3,2,2,2,2,2,2 |

## Left out

- `crypto.randomUUID` and `Math.random` are foreign calls. Ids and piston draws are inputs to the constructors. The replays give every object a short id with its type tag, because the engine only compares ids for equality.
- The random `timerStart` of the root `map1.ts` is never read, so it is not modelled.
- The `console.log` calls and the top-level `moveRight(); … moveUp();` script of the root `map1.ts` are side effects, not logic.
- Map layouts are inputs. The recorded runs use each map's layout as data.
- Rendering, the UI, the sandbox that runs user scripts, and the HTTP route are not part of this model.
- Engine.PlayerIndex: the engine takes the first player object. An object list without a player is excluded by the `Objects` type, where the source's `!` assertion, erased at compile time, would let the next property access (`player.position`) throw a `TypeError`.
- Engine.WithPlayerAt: the player's entry is written back by its index. The source finds it by id, which picks the same entry when ids are unique. With random UUID ids, they are.
- Session.GetSimulateResult: requires the first log entry to hold a player event with the player's id. The source asserts this with `!`, which is erased at compile time; without the event, the access to `.move.x` on `undefined` throws a `TypeError`. `Session.SnapshotRestoresStart` shows that every run from `createStart` meets it.
- Engine.NextPhase: for a counter outside 0..4, only the step itself is stated. The counter starts at 0 and never leaves 0..4.
- Repeat.Repeat: conditions and actions are modelled as pure functions of the session. A user condition that itself calls a wrapper (`() => { moveRight(); return true; }`) is out of scope. For such a condition, the source's last evaluation at the cap, made before `count < 10` stops the loop, would be observable, and the model does not record it.
- The root `map1.ts` keeps no energy history and has no `createStart`, so the legacy session's log starts empty.

=== FILE: engine.dfy ===
/** The tick engine shared by the three game maps: one operation in, the
    mutated world and the ordered events of that tick out. The module-level
    `timer` of the source is the `timer` field of the world. */
module Engine {
  import opened GameObject

  predicate HasPlayer(objs: seq<GameObject>) {
    exists i :: 0 <= i < |objs| && objs[i].Player?
  }

  /** The registration-ordered object list. Every lookup of the player in the
      source is a non-null-asserted `find`, so a list without one is outside
      the engine's domain. */
  type Objects = objs: seq<GameObject> | HasPlayer(objs) witness LonePlayer()

  /** The smallest world: a single player at the origin. */
  function LonePlayer(): (objs: seq<GameObject>)
    ensures HasPlayer(objs)
  {
    var objs := [Player("player-", Pos(0, 0))];
    assert objs[0].Player?;
    objs
  }

  /** The world a tick function closes over, plus the phase counter. */
  datatype World = World(objects: Objects, timer: int)

  /** What one call of the tick function returns: the world after it and the
      events it emitted, in order. */
  datatype TickResult = TickResult(world: World, plans: seq<MovePlan>)

  /** The index `find(obj => obj.type === "player")` lands on: the first
      player in registration order. */
  function PlayerIndex(objs: seq<GameObject>): (i: nat)
    requires HasPlayer(objs)
    ensures i < |objs| && objs[i].Player?
    ensures forall j :: 0 <= j < i ==> !objs[j].Player?
    decreases |objs|
  {
    if objs[0].Player? then 0
    else
      assert HasPlayer(objs[1..]) by {
        var k :| 0 <= k < |objs| && objs[k].Player?;
        assert objs[1..][k - 1] == objs[k];
      }
      1 + PlayerIndex(objs[1..])
  }

  function PlayerOf(objs: Objects): (p: GameObject)
    ensures p.Player?
  {
    objs[PlayerIndex(objs)]
  }

  /** Any two lists that agree on everything but the player's position have
      their first player at the same index. */
  lemma PlayerIndexStable(a: Objects, b: Objects, i: nat)
    requires i < |a| == |b| && a[i].Player? && b[i].Player?
    requires forall j :: 0 <= j < |a| && j != i ==> a[j] == b[j]
    requires forall j :: 0 <= j < i ==> !a[j].Player?
    ensures PlayerIndex(a) == i && PlayerIndex(b) == i
  {
  }

  /** The objects with the player's position replaced: the only mutation a
      tick ever makes to the object list. */
  function WithPlayerAt(objs: Objects, pos: Pos): (r: Objects)
    ensures SameLayout(objs, r)
    ensures PlayerOf(r).position == pos
  {
    var i := PlayerIndex(objs);
    var r := objs[i := Player(objs[i].id, pos)];
    assert r[i].Player?;
    PlayerIndexStable(objs, r, i);
    r
  }

  /** `b` is `a` with at most the player's position changed: same length,
      same player index, same player id, every other object untouched. */
  predicate SameLayout(a: Objects, b: Objects) {
    && |a| == |b|
    && PlayerIndex(a) == PlayerIndex(b)
    && PlayerOf(b) == Player(PlayerOf(a).id, PlayerOf(b).position)
    && forall j :: 0 <= j < |a| && j != PlayerIndex(a) ==> a[j] == b[j]
  }

  lemma SameLayoutTransitive(a: Objects, b: Objects, c: Objects)
    requires SameLayout(a, b) && SameLayout(b, c)
    ensures SameLayout(a, c)
  {
  }

  // ---------------------------------------------------------------------
  // Directional ticks
  // ---------------------------------------------------------------------

  /** Whether object `o` refuses a step onto `target` at phase `timer`: any
      object but a goal or slide floor on that cell, or a piston whose head is
      out on that cell. */
  predicate BlocksMove(o: GameObject, target: Pos, timer: int) {
    || (!o.Goal? && !o.SlideFloor? && o.position == target)
    || (o.Piston? && o.eventNumber == timer && Head(o) == target)
  }

  /** The scan over the objects that returns on the first blocking one. */
  function Blocked(objs: seq<GameObject>, target: Pos, timer: int): (b: bool)
    ensures b <==> exists i :: 0 <= i < |objs| && BlocksMove(objs[i], target, timer)
    decreases |objs|
  {
    if |objs| == 0 then false
    else if BlocksMove(objs[0], target, timer) then true
    else
      var b := Blocked(objs[1..], target, timer);
      assert forall i :: 1 <= i < |objs| ==> objs[i] == objs[1..][i - 1];
      b
  }

  /** A step of the player one cell along `d`. It fails, leaving the world
      exactly as it was and reporting the unchanged position, when the target
      is off the 8x8 board or blocked; otherwise the player moves there and
      one `move` event reports the new cell. The phase never changes. */
  function TickMove(w: World, d: Direction): (r: TickResult)
    ensures r.world.timer == w.timer
    ensures SameLayout(w.objects, r.world.objects)
    ensures |r.plans| == 1 && r.plans[0].PlayerPlan?
    ensures r.plans[0].id == PlayerOf(w.objects).id
    ensures var from := PlayerOf(w.objects).position;
            var target := Step(from, d);
            && (r.plans[0].action == Moved <==>
                  InBounds(target) &&
                  !exists i :: 0 <= i < |w.objects| && BlocksMove(w.objects[i], target, w.timer))
            && (r.plans[0].action != Moved ==>
                  r.plans[0].action == FailureFor(d) && r.plans[0].move == from && r.world == w)
            && (r.plans[0].action == Moved ==>
                  r.plans[0].move == target && PlayerOf(r.world.objects).position == target)
    ensures InBounds(PlayerOf(w.objects).position) ==> InBounds(PlayerOf(r.world.objects).position)
  {
    var player := PlayerOf(w.objects);
    var target := Step(player.position, d);
    if !InBounds(target) || Blocked(w.objects, target, w.timer) then
      TickResult(w, [PlayerPlan(player.id, player.position, FailureFor(d))])
    else
      TickResult(w.(objects := WithPlayerAt(w.objects, target)), [PlayerPlan(player.id, target, Moved)])
  }

  // ---------------------------------------------------------------------
  // Stay ticks
  // ---------------------------------------------------------------------

  /** `timer++`, then back to 0 when it is divisible by 5. Divisibility does
      not depend on the sign convention of `%`, so Dafny's operator agrees
      with the source's here. */
  function NextPhase(t: int): (n: int)
    ensures 0 <= t <= 4 ==> 0 <= n <= 4 && n == (t + 1) % 5
    ensures n != t
  {
    if (t + 1) % 5 == 0 then 0 else t + 1
  }

  /** Whether some goal sits on `pos`. */
  function GoalAt(objs: seq<GameObject>, pos: Pos): (b: bool)
    ensures b <==> exists i :: 0 <= i < |objs| && objs[i].Goal? && objs[i].position == pos
    decreases |objs|
  {
    if |objs| == 0 then false
    else if objs[0].Goal? && objs[0].position == pos then true
    else
      var b := GoalAt(objs[1..], pos);
      assert forall i :: 1 <= i < |objs| ==> objs[i] == objs[1..][i - 1];
      b
  }

  /** The state threaded through the walk over the objects of a stay tick:
      the player's current cell, whether a slide floor has already acted,
      and the events so far. */
  datatype Settling = Settling(pos: Pos, actioned: bool, plans: seq<MovePlan>)

  /** What one object does to the player during a stay tick. A piston out of
      phase deactivates. A piston in phase pushes a player standing on its
      head cell one further cell along its facing, reports the player (moved
      or not), then activates. A slide floor under the player moves them one
      cell along its facing, unless a floor already acted this tick. Goals,
      boxes and players do nothing. Nothing here is bounds-checked. Every
      player event reports the cell the player ends up on. */
  function SettleOne(o: GameObject, timer: int, pid: string, pos: Pos, actioned: bool): (s: Settling)
    ensures actioned ==> s.actioned
    ensures s.actioned != actioned <==> o.SlideFloor? && o.position == pos && !actioned
    ensures s.pos != pos ==>
              || (o.Piston? && o.eventNumber == timer && pos == Head(o))
              || (o.SlideFloor? && o.position == pos && !actioned)
    ensures s.pos != pos ==> s.pos == Step(pos, o.direction)
    ensures o.Piston? && o.eventNumber == timer && pos == Head(o) ==> s.pos == Step(pos, o.direction)
    ensures o.SlideFloor? && o.position == pos && !actioned ==> s.pos == Step(pos, o.direction)
    ensures forall k :: 0 <= k < |s.plans| && s.plans[k].PlayerPlan? ==> s.plans[k].move == s.pos
  {
    match o
    case Piston(_, _, _, _) =>
      if timer != o.eventNumber then
        Settling(pos, actioned, [PistonPlan(o.id, o.direction, Deactivate)])
      else
        var pushed := if pos == Head(o) then Step(pos, o.direction) else pos;
        Settling(pushed, actioned, [PlayerPlan(pid, pushed, Moved), PistonPlan(o.id, o.direction, Activate)])
    case SlideFloor(_, _, _) =>
      if o.position == pos && !actioned then
        var slid := Step(pos, o.direction);
        Settling(slid, true, [PlayerPlan(pid, slid, Moved)])
      else
        Settling(pos, actioned, [])
    case _ =>
      Settling(pos, actioned, [])
  }

  /** The walk over the objects in registration order. Once a floor has
      acted the flag stays set for the rest of the walk, so no later floor
      acts. */
  function Settle(objs: seq<GameObject>, timer: int, pid: string, pos: Pos, actioned: bool): (s: Settling)
    ensures actioned ==> s.actioned
    decreases |objs|
  {
    if |objs| == 0 then Settling(pos, actioned, [])
    else
      var first := SettleOne(objs[0], timer, pid, pos, actioned);
      var rest := Settle(objs[1..], timer, pid, first.pos, first.actioned);
      Settling(rest.pos, rest.actioned, first.plans + rest.plans)
  }

  /** A stay tick. The phase advances first. A player standing on a goal at
      the start of the tick gets a single `success` event and nothing else
      happens; otherwise every object acts in registration order. */
  function TickStay(w: World): (r: TickResult)
    ensures r.world.timer == NextPhase(w.timer)
    ensures SameLayout(w.objects, r.world.objects)
    ensures var p := PlayerOf(w.objects);
            GoalAt(w.objects, p.position) ==>
              r.plans == [PlayerPlan(p.id, p.position, Success)] && r.world.objects == w.objects
  {
    var timer := NextPhase(w.timer);
    var p := PlayerOf(w.objects);
    if GoalAt(w.objects, p.position) then
      TickResult(w.(timer := timer), [PlayerPlan(p.id, p.position, Success)])
    else
      var s := Settle(w.objects, timer, p.id, p.position, false);
      TickResult(World(WithPlayerAt(w.objects, s.pos), timer), s.plans)
  }

  /** The function `createTick` returns: dispatch on the operation. Only a
      stay tick moves the phase, and only the player's position ever
      changes. */
  function Tick(w: World, op: Operation): (r: TickResult)
    ensures op.Go? ==> r.world.timer == w.timer
    ensures op.Stay? ==> r.world.timer == NextPhase(w.timer)
    ensures SameLayout(w.objects, r.world.objects)
  {
    match op
    case Go(d) => TickMove(w, d)
    case Stay => TickStay(w)
  }
}

=== FILE: engine_laws.dfy ===
/** Properties of the stay tick that relate whole event lists to the object
    list they came from: how many events each piston contributes, how often
    the player can be redirected, and in which order events appear. */
module EngineLaws {
  import opened GameObject
  import opened Engine

  // ---------------------------------------------------------------------
  // The phase counter
  // ---------------------------------------------------------------------

  /** The phase after `n` stay ticks from phase `t`. */
  function PhaseAfter(t: int, n: nat): int
    decreases n
  {
    if n == 0 then t else NextPhase(PhaseAfter(t, n - 1))
  }

  /** From any phase in the 5-slot window, `n` stay ticks land on
      `(t + n) % 5`: the counter cycles 0, 1, 2, 3, 4, 0, ... and five stay
      ticks bring it back to where it was. */
  lemma {:induction false} PhaseCycles(t: int, n: nat)
    requires 0 <= t <= 4
    ensures PhaseAfter(t, n) == (t + n) % 5
    ensures 0 <= PhaseAfter(t, n) <= 4
    decreases n
  {
    if n > 0 {
      PhaseCycles(t, n - 1);
    }
  }

  // ---------------------------------------------------------------------
  // Counting and filtering events
  // ---------------------------------------------------------------------

  predicate IsPistonPlan(e: MovePlan) { e.PistonPlan? }
  predicate IsActivation(e: MovePlan) { e.PistonPlan? && e.pistonAction == Activate }
  predicate IsPlayerMove(e: MovePlan) { e.PlayerPlan? && e.action == Moved }

  /** The piston events of a tick, in order. */
  function PistonPlans(plans: seq<MovePlan>): (r: seq<MovePlan>)
    ensures |r| <= |plans|
    decreases |plans|
  {
    if |plans| == 0 then []
    else (if plans[0].PistonPlan? then [plans[0]] else []) + PistonPlans(plans[1..])
  }

  lemma {:induction false} PistonPlansAppend(a: seq<MovePlan>, b: seq<MovePlan>)
    ensures PistonPlans(a + b) == PistonPlans(a) + PistonPlans(b)
    decreases |a|
  {
    if |a| == 0 {
      assert a + b == b;
    } else {
      assert (a + b)[0] == a[0];
      assert (a + b)[1..] == a[1..] + b;
      PistonPlansAppend(a[1..], b);
      var head := if a[0].PistonPlan? then [a[0]] else [];
      calc {
        PistonPlans(a + b);
        head + PistonPlans(a[1..] + b);
        head + (PistonPlans(a[1..]) + PistonPlans(b));
        (head + PistonPlans(a[1..])) + PistonPlans(b);
      }
    }
  }

  function CountActivations(plans: seq<MovePlan>): nat
    decreases |plans|
  {
    if |plans| == 0 then 0
    else (if IsActivation(plans[0]) then 1 else 0) + CountActivations(plans[1..])
  }

  function CountPlayerMoves(plans: seq<MovePlan>): nat
    decreases |plans|
  {
    if |plans| == 0 then 0
    else (if IsPlayerMove(plans[0]) then 1 else 0) + CountPlayerMoves(plans[1..])
  }

  lemma {:induction false} CountsAppend(a: seq<MovePlan>, b: seq<MovePlan>)
    ensures CountActivations(a + b) == CountActivations(a) + CountActivations(b)
    ensures CountPlayerMoves(a + b) == CountPlayerMoves(a) + CountPlayerMoves(b)
    decreases |a|
  {
    if |a| == 0 {
      assert a + b == b;
    } else {
      assert (a + b)[1..] == a[1..] + b;
      CountsAppend(a[1..], b);
    }
  }

  /** The event each piston must contribute at phase `timer`, in registration
      order: `activate` exactly when the phase is its slot. */
  function PistonVerdicts(objs: seq<GameObject>, timer: int): seq<MovePlan>
    decreases |objs|
  {
    if |objs| == 0 then []
    else
      var o := objs[0];
      (if o.Piston? then [PistonPlan(o.id, o.direction, if o.eventNumber == timer then Activate else Deactivate)] else [])
      + PistonVerdicts(objs[1..], timer)
  }

  function PistonCount(objs: seq<GameObject>): nat
    decreases |objs|
  {
    if |objs| == 0 then 0 else (if objs[0].Piston? then 1 else 0) + PistonCount(objs[1..])
  }

  lemma {:induction false} PistonVerdictsLength(objs: seq<GameObject>, timer: int)
    ensures |PistonVerdicts(objs, timer)| == PistonCount(objs)
    decreases |objs|
  {
    if |objs| > 0 {
      PistonVerdictsLength(objs[1..], timer);
    }
  }

  // ---------------------------------------------------------------------
  // The walk over the objects
  // ---------------------------------------------------------------------

  /** The walk is a left fold: walking `a + b` is walking `a`, then walking
      `b` from the cell and floor flag `a` left behind, with the events of
      both in order. */
  lemma {:induction false} SettleAppend(a: seq<GameObject>, b: seq<GameObject>, timer: int, pid: string, pos: Pos, actioned: bool)
    ensures var first := Settle(a, timer, pid, pos, actioned);
            var second := Settle(b, timer, pid, first.pos, first.actioned);
            Settle(a + b, timer, pid, pos, actioned) == Settling(second.pos, second.actioned, first.plans + second.plans)
    decreases |a|
  {
    if |a| == 0 {
      assert a + b == b;
    } else {
      var one := SettleOne(a[0], timer, pid, pos, actioned);
      assert (a + b)[0] == a[0];
      assert (a + b)[1..] == a[1..] + b;
      SettleAppend(a[1..], b, timer, pid, one.pos, one.actioned);
      var rest := Settle(a[1..], timer, pid, one.pos, one.actioned);
      var second := Settle(b, timer, pid, rest.pos, rest.actioned);
      assert one.plans + (rest.plans + second.plans) == (one.plans + rest.plans) + second.plans;
    }
  }

  /** The same law with both halves' walks already known. */
  lemma SettleJoin(a: seq<GameObject>, b: seq<GameObject>, timer: int, pid: string, pos: Pos, mid: Settling, fin: Settling)
    requires Settle(a, timer, pid, pos, false) == mid
    requires Settle(b, timer, pid, mid.pos, mid.actioned) == fin
    ensures Settle(a + b, timer, pid, pos, false) == Settling(fin.pos, fin.actioned, mid.plans + fin.plans)
  {
    SettleAppend(a, b, timer, pid, pos, false);
  }

  /** The step scan splits the same way: `a + b` blocks a cell exactly when
      `a` or `b` does. */
  lemma BlockedAppend(a: seq<GameObject>, b: seq<GameObject>, target: Pos, timer: int)
    ensures Blocked(a + b, target, timer) == (Blocked(a, target, timer) || Blocked(b, target, timer))
  {
    var ab := a + b;
    if Blocked(ab, target, timer) {
      var i :| 0 <= i < |ab| && BlocksMove(ab[i], target, timer);
      if i >= |a| {
        assert ab[i] == b[i - |a|];
      } else {
        assert ab[i] == a[i];
      }
    }
    if Blocked(a, target, timer) {
      var i :| 0 <= i < |a| && BlocksMove(a[i], target, timer);
      assert ab[i] == a[i];
    }
    if Blocked(b, target, timer) {
      var i :| 0 <= i < |b| && BlocksMove(b[i], target, timer);
      assert ab[i + |a|] == b[i];
    }
  }

  /** Each piston emits exactly one piston event per stay tick, never both
      and never none, in registration order: `activate` when the phase is its
      slot, `deactivate` otherwise. */
  lemma {:induction false} SettlePistonEvents(objs: seq<GameObject>, timer: int, pid: string, pos: Pos, actioned: bool)
    ensures PistonPlans(Settle(objs, timer, pid, pos, actioned).plans) == PistonVerdicts(objs, timer)
    decreases |objs|
  {
    if |objs| > 0 {
      var first := SettleOne(objs[0], timer, pid, pos, actioned);
      var rest := Settle(objs[1..], timer, pid, first.pos, first.actioned);
      SettlePistonEvents(objs[1..], timer, pid, first.pos, first.actioned);
      PistonPlansAppend(first.plans, rest.plans);
      SettleOnePistonEvents(objs[0], timer, pid, pos, actioned);
    }
  }

  /** One object's share of the piston events: its own verdict if it is a
      piston, nothing otherwise. */
  lemma SettleOnePistonEvents(o: GameObject, timer: int, pid: string, pos: Pos, actioned: bool)
    ensures PistonPlans(SettleOne(o, timer, pid, pos, actioned).plans)
            == (if o.Piston? then [PistonPlan(o.id, o.direction, if o.eventNumber == timer then Activate else Deactivate)] else [])
  {
    var plans := SettleOne(o, timer, pid, pos, actioned).plans;
    if |plans| == 2 {
      assert plans[1..][1..] == [];
    } else if |plans| == 1 {
      assert plans[1..] == [];
    }
  }

  /** Player `move` events come from in-phase pistons, one each, plus at most
      one from a slide floor: exactly one more than the activations when a
      floor acted during the walk, none more otherwise. */
  lemma {:induction false} SettleMoveCount(objs: seq<GameObject>, timer: int, pid: string, pos: Pos, actioned: bool)
    ensures var s := Settle(objs, timer, pid, pos, actioned);
            CountPlayerMoves(s.plans) == CountActivations(s.plans) + (if s.actioned && !actioned then 1 else 0)
    decreases |objs|
  {
    if |objs| > 0 {
      var first := SettleOne(objs[0], timer, pid, pos, actioned);
      var rest := Settle(objs[1..], timer, pid, first.pos, first.actioned);
      SettleMoveCount(objs[1..], timer, pid, first.pos, first.actioned);
      CountsAppend(first.plans, rest.plans);
      SettleOneMoveCount(objs[0], timer, pid, pos, actioned);
    }
  }

  /** One object's share: a piston in phase emits one move and one
      activation, a slide floor that acts emits one move, nothing else
      emits either. */
  lemma SettleOneMoveCount(o: GameObject, timer: int, pid: string, pos: Pos, actioned: bool)
    ensures var s := SettleOne(o, timer, pid, pos, actioned);
            CountPlayerMoves(s.plans) == CountActivations(s.plans) + (if s.actioned && !actioned then 1 else 0)
  {
    var plans := SettleOne(o, timer, pid, pos, actioned).plans;
    if |plans| == 2 {
      assert plans[1..][1..] == [];
      assert CountActivations(plans[1..]) == 1 && CountPlayerMoves(plans[1..]) == 0;
    } else if |plans| == 1 {
      assert plans[1..] == [];
    }
  }

  /** Shape of a tick's event list: every player event is a `move` of the
      player `pid`, and every `activate` comes right after a player `move`. */
  predicate WellOrdered(plans: seq<MovePlan>, pid: string) {
    && (forall k :: 0 <= k < |plans| && plans[k].PlayerPlan? ==>
          plans[k].id == pid && plans[k].action == Moved)
    && (forall k :: 0 <= k < |plans| && IsActivation(plans[k]) ==>
          0 < k && IsPlayerMove(plans[k - 1]))
  }

  lemma WellOrderedAppend(a: seq<MovePlan>, b: seq<MovePlan>, pid: string)
    requires WellOrdered(a, pid) && WellOrdered(b, pid)
    ensures WellOrdered(a + b, pid)
  {
    var c := a + b;
    forall k | 0 <= k < |c| && IsActivation(c[k])
      ensures 0 < k && IsPlayerMove(c[k - 1])
    {
      if k >= |a| {
        assert c[k] == b[k - |a|];
        assert c[k - 1] == b[k - |a| - 1];
      }
    }
  }

  lemma {:induction false} SettleWellOrdered(objs: seq<GameObject>, timer: int, pid: string, pos: Pos, actioned: bool)
    ensures WellOrdered(Settle(objs, timer, pid, pos, actioned).plans, pid)
    decreases |objs|
  {
    if |objs| > 0 {
      var first := SettleOne(objs[0], timer, pid, pos, actioned);
      var rest := Settle(objs[1..], timer, pid, first.pos, first.actioned);
      SettleWellOrdered(objs[1..], timer, pid, first.pos, first.actioned);
      WellOrderedAppend(first.plans, rest.plans, pid);
    }
  }

  // ---------------------------------------------------------------------
  // Replaying the player events
  // ---------------------------------------------------------------------

  /** Where a renderer that follows the player events of `plans` leaves the
      player: on the cell of the last player event, or on `start` when there
      is none. */
  function ReplayCell(plans: seq<MovePlan>, start: Pos): Pos
    decreases |plans|
  {
    if |plans| == 0 then start
    else ReplayCell(plans[1..], if plans[0].PlayerPlan? then plans[0].move else start)
  }

  lemma {:induction false} ReplayAppend(a: seq<MovePlan>, b: seq<MovePlan>, start: Pos)
    ensures ReplayCell(a + b, start) == ReplayCell(b, ReplayCell(a, start))
    decreases |a|
  {
    if |a| == 0 {
      assert a + b == b;
    } else {
      assert (a + b)[0] == a[0];
      assert (a + b)[1..] == a[1..] + b;
      ReplayAppend(a[1..], b, if a[0].PlayerPlan? then a[0].move else start);
    }
  }

  /** One object's events replay to the cell it leaves the player on. */
  lemma SettleOneReplays(o: GameObject, timer: int, pid: string, pos: Pos, actioned: bool)
    ensures var s := SettleOne(o, timer, pid, pos, actioned);
            ReplayCell(s.plans, pos) == s.pos
  {
    var s := SettleOne(o, timer, pid, pos, actioned);
    if o.Piston? && o.eventNumber == timer {
      var tail := s.plans[1..];
      assert tail[1..] == [] && tail[0].PistonPlan?;
      assert ReplayCell(tail, s.pos) == ReplayCell(tail[1..], s.pos);
    } else if |s.plans| == 1 {
      assert s.plans[1..] == [];
    }
  }

  /** The events of a walk replay to the cell the walk ends on: the log alone
      tells the renderer where the player is. */
  lemma {:induction false} SettleReplays(objs: seq<GameObject>, timer: int, pid: string, pos: Pos, actioned: bool)
    ensures var s := Settle(objs, timer, pid, pos, actioned);
            ReplayCell(s.plans, pos) == s.pos
    decreases |objs|
  {
    if |objs| > 0 {
      var first := SettleOne(objs[0], timer, pid, pos, actioned);
      var rest := Settle(objs[1..], timer, pid, first.pos, first.actioned);
      SettleOneReplays(objs[0], timer, pid, pos, actioned);
      SettleReplays(objs[1..], timer, pid, first.pos, first.actioned);
      ReplayAppend(first.plans, rest.plans, pos);
    }
  }

  /** Every tick, directional or stay, logs events that replay from the
      player's cell before the tick to the player's cell after it. */
  lemma TickReplays(w: World, op: Operation)
    ensures ReplayCell(Tick(w, op).plans, PlayerOf(w.objects).position) == PlayerOf(Tick(w, op).world.objects).position
  {
    var p := PlayerOf(w.objects);
    var r := Tick(w, op);
    if op.Go? {
      assert r.plans[1..] == [];
    } else if GoalAt(w.objects, p.position) {
      assert r.plans[1..] == [];
    } else {
      SettleReplays(w.objects, NextPhase(w.timer), p.id, p.position, false);
    }
  }

  /** Only the machinery acts on the player: the floor flag can only be set
      by a slide floor, and only a piston or a slide floor can move the
      player. */
  lemma {:induction false} SettleOnlyMachinery(objs: seq<GameObject>, timer: int, pid: string, pos: Pos, actioned: bool)
    ensures var s := Settle(objs, timer, pid, pos, actioned);
            && (s.actioned != actioned ==> exists i :: 0 <= i < |objs| && objs[i].SlideFloor?)
            && (s.pos != pos ==> exists i :: 0 <= i < |objs| && (objs[i].Piston? || objs[i].SlideFloor?))
    decreases |objs|
  {
    if |objs| > 0 {
      var first := SettleOne(objs[0], timer, pid, pos, actioned);
      SettleOnlyMachinery(objs[1..], timer, pid, first.pos, first.actioned);
      assert forall i :: 1 <= i < |objs| ==> objs[i] == objs[1..][i - 1];
    }
  }

  /** Objects other than pistons and slide floors neither emit events nor
      move the player. */
  lemma {:induction false} SettleInert(objs: seq<GameObject>, timer: int, pid: string, pos: Pos, actioned: bool)
    requires forall i :: 0 <= i < |objs| ==> !objs[i].Piston? && !objs[i].SlideFloor?
    ensures Settle(objs, timer, pid, pos, actioned) == Settling(pos, actioned, [])
    decreases |objs|
  {
    if |objs| > 0 {
      assert !objs[0].Piston? && !objs[0].SlideFloor?;
      SettleInert(objs[1..], timer, pid, pos, actioned);
    }
  }

  // ---------------------------------------------------------------------
  // The stay tick as a whole
  // ---------------------------------------------------------------------

  /** A stay tick reports `success` exactly when the player starts it on a
      goal, and then that is its only event; otherwise every piston reports
      once in registration order, and the player moves once per activation
      plus once more exactly when a slide floor acted during the walk. */
  lemma StayTickEvents(w: World)
    ensures var p := PlayerOf(w.objects);
            var r := TickStay(w);
            && ((exists k :: 0 <= k < |r.plans| && r.plans[k].PlayerPlan? && r.plans[k].action == Success)
                <==> GoalAt(w.objects, p.position))
            && (!GoalAt(w.objects, p.position) ==>
                  && PistonPlans(r.plans) == PistonVerdicts(w.objects, r.world.timer)
                  && CountPlayerMoves(r.plans) == CountActivations(r.plans) +
                       (if Settle(w.objects, r.world.timer, p.id, p.position, false).actioned then 1 else 0)
                  && WellOrdered(r.plans, p.id))
  {
    var p := PlayerOf(w.objects);
    var r := TickStay(w);
    if GoalAt(w.objects, p.position) {
      assert r.plans[0].action == Success;
    } else {
      var t := NextPhase(w.timer);
      SettlePistonEvents(w.objects, t, p.id, p.position, false);
      SettleMoveCount(w.objects, t, p.id, p.position, false);
      SettleWellOrdered(w.objects, t, p.id, p.position, false);
    }
  }

  /** With no piston in phase, a walk leaves the player where they are and the
      floor flag as it was, provided the flag is already set or no slide floor
      lies under the player. */
  lemma {:induction false} SettleStill(objs: seq<GameObject>, timer: int, pid: string, pos: Pos, actioned: bool)
    requires forall j :: 0 <= j < |objs| && objs[j].Piston? ==> objs[j].eventNumber != timer
    requires !actioned ==> forall j :: 0 <= j < |objs| && objs[j].SlideFloor? ==> objs[j].position != pos
    ensures Settle(objs, timer, pid, pos, actioned).pos == pos
    ensures Settle(objs, timer, pid, pos, actioned).actioned == actioned
    decreases |objs|
  {
    if |objs| > 0 {
      var first := SettleOne(objs[0], timer, pid, pos, actioned);
      assert first.pos == pos && first.actioned == actioned;
      assert forall j :: 1 <= j < |objs| ==> objs[1..][j - 1] == objs[j];
      SettleStill(objs[1..], timer, pid, pos, actioned);
    }
  }

  /** A slide floor does act: with no piston in phase, a stay tick off the
      goal carries the player one cell along the facing of the first slide
      floor under them. */
  lemma StayTickFloorActs(w: World, i: nat)
    requires !GoalAt(w.objects, PlayerOf(w.objects).position)
    requires forall j :: 0 <= j < |w.objects| && w.objects[j].Piston? ==> w.objects[j].eventNumber != NextPhase(w.timer)
    requires i < |w.objects| && w.objects[i].SlideFloor? && w.objects[i].position == PlayerOf(w.objects).position
    requires forall j :: 0 <= j < i && w.objects[j].SlideFloor? ==> w.objects[j].position != PlayerOf(w.objects).position
    ensures PlayerOf(TickStay(w).world.objects).position == Step(PlayerOf(w.objects).position, w.objects[i].direction)
  {
    var objs := w.objects;
    var p := PlayerOf(objs);
    var t := NextPhase(w.timer);
    var before, floor, after := objs[..i], objs[i], objs[i + 1..];
    assert objs == before + ([floor] + after);
    assert forall j :: 0 <= j < |before| ==> before[j] == objs[j];
    assert forall j :: 0 <= j < |after| ==> after[j] == objs[i + 1 + j];
    SettleStill(before, t, p.id, p.position, false);
    var slid := Step(p.position, floor.direction);
    SettleStill(after, t, p.id, slid, true);
    SettleAppend([floor], after, t, p.id, p.position, false);
    SettleAppend(before, [floor] + after, t, p.id, p.position, false);
  }

  /** Each stay tick off the goal emits exactly as many piston events as there
      are pistons. */
  lemma StayTickPistonEventCount(w: World)
    requires !GoalAt(w.objects, PlayerOf(w.objects).position)
    ensures |PistonPlans(TickStay(w).plans)| == PistonCount(w.objects)
  {
    StayTickEvents(w);
    PistonVerdictsLength(w.objects, TickStay(w).world.timer);
  }

  /** On a board with only goals and boxes besides the player, a stay tick off
      the goal emits nothing and leaves the player where they are. */
  lemma StayTickWithoutMachinery(w: World)
    requires forall i :: 0 <= i < |w.objects| ==> !w.objects[i].Piston? && !w.objects[i].SlideFloor?
    requires !GoalAt(w.objects, PlayerOf(w.objects).position)
    ensures TickStay(w).plans == []
    ensures TickStay(w).world.objects == w.objects
  {
    var p := PlayerOf(w.objects);
    SettleInert(w.objects, NextPhase(w.timer), p.id, p.position, false);
    var r := TickStay(w).world.objects;
    assert forall j :: 0 <= j < |r| ==> r[j] == w.objects[j];
  }

  /** Piston pushes are not bounds-checked: a player standing on an edge cell
      in front of an extending piston is pushed off the board. */
  lemma PushCanLeaveBoard()
    ensures exists w: World ::
              InBounds(PlayerOf(w.objects).position) &&
              !InBounds(PlayerOf(TickStay(w).world.objects).position)
  {
    var objs := [Player("player-a", Pos(7, 0)), Piston("piston-b", Pos(6, 0), Right, 1)];
    assert objs[0].Player?;
    var w := World(objs, 0);
    assert PlayerIndex(objs) == 0;
    assert !GoalAt(objs, Pos(7, 0));
    assert Settle(objs, 1, "player-a", Pos(7, 0), false).pos == Pos(8, 0);
    assert PlayerOf(TickStay(w).world.objects).position == Pos(8, 0);
    assert InBounds(PlayerOf(w.objects).position) && !InBounds(PlayerOf(TickStay(w).world.objects).position);
  }
}

=== FILE: game_object.dfy ===
/** The data model of the puzzle: grid positions, the five kinds of game
    object, the operations a script can issue and the move-plan events the
    engine emits for the renderer. */
module GameObject {

  /** A facing, shared by pistons, slide floors and directional operations. */
  datatype Direction = Right | Left | Up | Down

  /** One command fed to the tick engine: a step in a direction, or `stay`. */
  datatype Operation = Go(dir: Direction) | Stay

  /** A grid cell. Coordinates are plain integers: nothing in the engine
      forbids a cell outside the 8x8 board once a piston or floor has moved
      the player. */
  datatype Pos = Pos(x: int, z: int)

  /** The tagged union of game objects. The constructor is the `type` tag;
      only pistons and slide floors have a `direction`, only pistons an
      `eventNumber` (the phase slot in which they are extended). */
  datatype GameObject =
    | Player(id: string, position: Pos)
    | Goal(id: string, position: Pos)
    | Piston(id: string, position: Pos, direction: Direction, eventNumber: int)
    | SlideFloor(id: string, position: Pos, direction: Direction)
    | Box(id: string, position: Pos)

  /** The seven player actions of a move-plan event. */
  datatype PlayerAction =
    | Start | Moved | FailureUp | FailureRight | FailureDown | FailureLeft | Success

  /** The two piston actions of a move-plan event. */
  datatype PistonAction = Activate | Deactivate

  /** One event of a tick: the renderer pattern-matches on these. */
  datatype MovePlan =
    | PlayerPlan(id: string, move: Pos, action: PlayerAction)
    | PistonPlan(id: string, direction: Direction, pistonAction: PistonAction)

  /** The board is 8x8, boundary inclusive. */
  const BoardMax := 7

  predicate InBounds(p: Pos) {
    0 <= p.x <= BoardMax && 0 <= p.z <= BoardMax
  }

  /** The neighbouring cell one unit along `d` (`up` is +z). */
  function Step(p: Pos, d: Direction): Pos {
    match d
    case Right => Pos(p.x + 1, p.z)
    case Left => Pos(p.x - 1, p.z)
    case Up => Pos(p.x, p.z + 1)
    case Down => Pos(p.x, p.z - 1)
  }

  function Opposite(d: Direction): Direction {
    match d
    case Right => Left
    case Left => Right
    case Up => Down
    case Down => Up
  }

  function Abs(n: int): nat {
    if n < 0 then -n else n
  }

  /** A step covers exactly one unit of Manhattan distance, and stepping back
      the opposite way undoes it. */
  lemma StepIsUnit(p: Pos, d: Direction)
    ensures Abs(Step(p, d).x - p.x) + Abs(Step(p, d).z - p.z) == 1
    ensures Step(Step(p, d), Opposite(d)) == p
    ensures Step(p, d) != p
  {
    match d
    case Right =>
    case Left =>
    case Up =>
    case Down =>
  }

  /** The cell a piston's head covers while it is extended. */
  function Head(o: GameObject): Pos
    requires o.Piston?
  {
    Step(o.position, o.direction)
  }

  function DirectionName(d: Direction): string {
    match d
    case Right => "right"
    case Left => "left"
    case Up => "up"
    case Down => "down"
  }

  /** The `type` tag of an object as the renderer sees it. */
  function TypeName(o: GameObject): string {
    match o
    case Player(_, _) => "player"
    case Goal(_, _) => "goal"
    case Piston(_, _, _, _) => "piston"
    case SlideFloor(_, _, _) => "slideFloor"
    case Box(_, _) => "box"
  }

  /** The wire name of a player action. */
  function ActionName(a: PlayerAction): string {
    match a
    case Start => "start"
    case Moved => "move"
    case FailureUp => "failure-up"
    case FailureRight => "failure-right"
    case FailureDown => "failure-down"
    case FailureLeft => "failure-left"
    case Success => "success"
  }

  /** The failure action for a refused step: its wire name is `failure-`
      followed by the operation's own name. */
  function FailureFor(d: Direction): (a: PlayerAction)
    ensures ActionName(a) == "failure-" + DirectionName(d)
    ensures a != Moved && a != Start && a != Success
  {
    match d
    case Right => FailureRight
    case Left => FailureLeft
    case Up => FailureUp
    case Down => FailureDown
  }

  predicate IsFailure(a: PlayerAction) {
    a.FailureUp? || a.FailureRight? || a.FailureDown? || a.FailureLeft?
  }

  /** Distinct player actions have distinct wire names, so the renderer can
      tell all seven apart; the failure actions are exactly the four
      `failure-<direction>` names. */
  lemma ActionNamesDistinct(a: PlayerAction, b: PlayerAction)
    ensures a != b ==> ActionName(a) != ActionName(b)
    ensures IsFailure(a) <==> exists d: Direction :: a == FailureFor(d)
  {
    if IsFailure(a) {
      match a
      case FailureUp => assert a == FailureFor(Up);
      case FailureRight => assert a == FailureFor(Right);
      case FailureDown => assert a == FailureFor(Down);
      case FailureLeft => assert a == FailureFor(Left);
    }
  }

  /** An id is the type name, a dash, then an opaque suffix. */
  predicate IdTagged(o: GameObject) {
    var tag := TypeName(o) + "-";
    |tag| <= |o.id| && o.id[..|tag|] == tag
  }

  /** Objects of different kinds never share an id, whatever their random
      suffixes: the five tags already differ in their first two characters. */
  lemma TagsKeepKindsApart(a: GameObject, b: GameObject)
    requires IdTagged(a) && IdTagged(b)
    requires TypeName(a) != TypeName(b)
    ensures a.id != b.id
  {
    var ta := TypeName(a) + "-";
    var tb := TypeName(b) + "-";
    assert a.id[..|ta|] == ta && b.id[..|tb|] == tb;
    if ta[0] != tb[0] {
      assert a.id[0] == ta[0] && b.id[0] == tb[0];
    } else {
      assert ta[1] != tb[1];
      assert a.id[1] == ta[1] && b.id[1] == tb[1];
    }
  }

  /** `crypto.randomUUID()` is not modelled: its value is the `uuid` input. */
  function CreateGoal(x: int, z: int, uuid: string): (o: GameObject)
    ensures o.Goal? && TypeName(o) == "goal"
    ensures o.position == Pos(x, z)
    ensures IdTagged(o) && o.id[|"goal-"|..] == uuid
  {
    Goal("goal-" + uuid, Pos(x, z))
  }

  function CreatePlayer(x: int, z: int, uuid: string): (o: GameObject)
    ensures o.Player? && TypeName(o) == "player"
    ensures o.position == Pos(x, z)
    ensures IdTagged(o) && o.id[|"player-"|..] == uuid
  {
    Player("player-" + uuid, Pos(x, z))
  }

  /** `Math.random()` is the input `random`, a real in [0, 1). The phase slot
      `floor(random * 4) + 1` therefore lies in 1..4: a piston is never
      extended at phase 0. */
  function CreatePiston(x: int, z: int, direction: Direction, uuid: string, random: real): (o: GameObject)
    requires 0.0 <= random < 1.0
    ensures o.Piston? && TypeName(o) == "piston"
    ensures o.position == Pos(x, z) && o.direction == direction
    ensures 1 <= o.eventNumber <= 4
    ensures IdTagged(o) && o.id[|"piston-"|..] == uuid
  {
    Piston("piston-" + uuid, Pos(x, z), direction, (random * 4.0).Floor + 1)
  }

  function CreateSlideFloor(x: int, z: int, direction: Direction, uuid: string): (o: GameObject)
    ensures o.SlideFloor? && TypeName(o) == "slideFloor"
    ensures o.position == Pos(x, z) && o.direction == direction
    ensures IdTagged(o) && o.id[|"slideFloor-"|..] == uuid
  {
    SlideFloor("slideFloor-" + uuid, Pos(x, z), direction)
  }

  function CreateBox(x: int, z: int, uuid: string): (o: GameObject)
    ensures o.Box? && TypeName(o) == "box"
    ensures o.position == Pos(x, z)
    ensures IdTagged(o) && o.id[|"box-"|..] == uuid
  {
    Box("box-" + uuid, Pos(x, z))
  }

  /** The random draw `k / 4`, one of the four cut points of [0, 1). */
  function QuarterDraw(k: int): real {
    k as real / 4.0
  }

  /** Every phase slot in 1..4 is produced by some random draw, and no other
      slot is. */
  lemma PistonSlotsExactlyOneToFour(slot: int)
    ensures (exists k: int :: 0 <= k < 4 && 0.0 <= QuarterDraw(k) < 1.0 &&
               slot == CreatePiston(0, 0, Right, "", QuarterDraw(k)).eventNumber)
            <==> 1 <= slot <= 4
  {
    if 1 <= slot <= 4 {
      var k := slot - 1;
      assert QuarterDraw(k) * 4.0 == k as real;
      assert CreatePiston(0, 0, Right, "", QuarterDraw(k)).eventNumber == slot;
    }
  }
}

=== FILE: legacy.dfy ===
/** The older, cut-down engine of the root `map1.ts`: no phase, no pistons,
    no slide-floor rules, and wrappers that only append ticks. The random
    `timerStart` it draws is never read and is not modelled. */
module Legacy {
  import opened GameObject
  import Engine
  import EngineLaws

  /** Every object except a goal blocks its cell, slide floors included. */
  predicate LegacyBlocks(o: GameObject, target: Pos) {
    !o.Goal? && o.position == target
  }

  function LegacyBlocked(objs: seq<GameObject>, target: Pos): (b: bool)
    ensures b <==> exists i :: 0 <= i < |objs| && LegacyBlocks(objs[i], target)
    decreases |objs|
  {
    if |objs| == 0 then false
    else if LegacyBlocks(objs[0], target) then true
    else
      var b := LegacyBlocked(objs[1..], target);
      assert forall i :: 1 <= i < |objs| ==> objs[i] == objs[1..][i - 1];
      b
  }

  /** A step of the player: one failure event at the unchanged cell when the
      target is off the board or taken, else one `move` event at the new
      cell. */
  function LegacyTickMove(objs: Engine.Objects, d: Direction): (r: (Engine.Objects, seq<MovePlan>))
    ensures Engine.SameLayout(objs, r.0)
    ensures |r.1| == 1 && r.1[0].PlayerPlan? && r.1[0].id == Engine.PlayerOf(objs).id
    ensures var from := Engine.PlayerOf(objs).position;
            var target := Step(from, d);
            && (r.1[0].action == Moved <==>
                  InBounds(target) && !exists i :: 0 <= i < |objs| && LegacyBlocks(objs[i], target))
            && (r.1[0].action != Moved ==> r.1[0] == PlayerPlan(r.1[0].id, from, FailureFor(d)) && r.0 == objs)
            && (r.1[0].action == Moved ==> r.1[0].move == target && Engine.PlayerOf(r.0).position == target)
  {
    var player := Engine.PlayerOf(objs);
    var target := Step(player.position, d);
    if !InBounds(target) || LegacyBlocked(objs, target) then
      (objs, [PlayerPlan(player.id, player.position, FailureFor(d))])
    else
      (Engine.WithPlayerAt(objs, target), [PlayerPlan(player.id, target, Moved)])
  }

  /** A stay tick: on a goal the player is written back at the cell it
      already holds and gets `success`; otherwise nothing happens. The
      write-back leaves the objects exactly as they were. */
  function LegacyTickStay(objs: Engine.Objects): (r: (Engine.Objects, seq<MovePlan>))
    ensures var p := Engine.PlayerOf(objs);
            && (Engine.GoalAt(objs, p.position) <==> r.1 != [])
            && (r.1 != [] ==> r.1 == [PlayerPlan(p.id, p.position, Success)])
    ensures r.0 == objs
  {
    var p := Engine.PlayerOf(objs);
    if Engine.GoalAt(objs, p.position) then
      var back := Engine.WithPlayerAt(objs, p.position);
      assert back == objs by {
        assert forall j :: 0 <= j < |objs| ==> back[j] == objs[j];
      }
      (back, [PlayerPlan(p.id, p.position, Success)])
    else
      (objs, [])
  }

  /** The log of the old engine: there is no energy ledger. */
  datatype LegacySession = LegacySession(objects: Engine.Objects, movePlan: seq<seq<MovePlan>>)

  /** `moveRight/Up/Left/Down`: always log the step and the stay tick. */
  function LegacyMove(s: LegacySession, d: Direction): (r: LegacySession)
    ensures |r.movePlan| == |s.movePlan| + 2 && r.movePlan[..|s.movePlan|] == s.movePlan
    ensures |r.movePlan[|s.movePlan|]| == 1
    ensures r.movePlan[|s.movePlan| + 1] == LegacyTickStay(r.objects).1
    ensures Engine.SameLayout(s.objects, r.objects)
  {
    var (objs, first) := LegacyTickMove(s.objects, d);
    var (after, second) := LegacyTickStay(objs);
    LegacySession(after, s.movePlan + [first, second])
  }

  /** A move logs exactly the step's events and leaves the objects the step
      made. */
  lemma LegacyMoveLogsStep(s: LegacySession, d: Direction)
    ensures var step := LegacyTickMove(s.objects, d);
            var r := LegacyMove(s, d);
            r.movePlan[|s.movePlan|] == step.1 && r.objects == step.0
  {
  }

  /** `stay()`: the root script runs a stay tick and never stores its
      events. Since a stay tick never changes the objects, nothing at all
      changes. */
  function LegacyStay(s: LegacySession): (r: LegacySession)
    ensures r == s
  {
    var (after, _) := LegacyTickStay(s.objects);
    LegacySession(after, s.movePlan)
  }

  predicate NoMachinery(objs: seq<GameObject>) {
    forall i :: 0 <= i < |objs| ==> !objs[i].Piston? && !objs[i].SlideFloor?
  }

  /** On a board of goals and boxes only, the old engine and the game maps'
      engine agree tick for tick, whatever the phase: same events, same
      objects after a step, and the same events for a stay tick. */
  lemma LegacyAgreesWithoutMachinery(objs: Engine.Objects, timer: int, d: Direction)
    requires NoMachinery(objs)
    ensures var w := Engine.World(objs, timer);
            && LegacyTickMove(objs, d).0 == Engine.TickMove(w, d).world.objects
            && LegacyTickMove(objs, d).1 == Engine.TickMove(w, d).plans
            && LegacyTickStay(objs).1 == Engine.TickStay(w).plans
            && Engine.TickStay(w).world.objects == objs
  {
    var w := Engine.World(objs, timer);
    var target := Step(Engine.PlayerOf(objs).position, d);
    assert forall i :: 0 <= i < |objs| ==>
      (LegacyBlocks(objs[i], target) <==> Engine.BlocksMove(objs[i], target, timer));
    if !Engine.GoalAt(objs, Engine.PlayerOf(objs).position) {
      EngineLaws.StayTickWithoutMachinery(w);
    }
  }
}

=== FILE: map3_run.dfy ===
/** The recorded run of game map 3 replayed through the model: slide floors
    carry the player along a conveyor while the piston at (3,2) cycles. */
module Map3Run {
  import opened GameObject
  import opened Engine
  import opened Session
  import opened Traces
  import Repeat
  import Obstacle
  import EngineLaws

  const P3 := "player-3"
  const K3 := "piston-3"
  const G3 := Goal("goal-3", Pos(7, 2))
  const F3a := SlideFloor("slideFloor-3a", Pos(2, 4), Right)
  const F3b := SlideFloor("slideFloor-3b", Pos(3, 4), Right)
  const F3c := SlideFloor("slideFloor-3c", Pos(4, 4), Right)
  const F3d := SlideFloor("slideFloor-3d", Pos(5, 4), Right)
  const F3e := SlideFloor("slideFloor-3e", Pos(6, 4), Up)
  const F3f := SlideFloor("slideFloor-3f", Pos(6, 5), Up)
  const F3g := SlideFloor("slideFloor-3g", Pos(6, 6), Left)
  const B3a := Box("box-3a", Pos(4, 5))
  const B3b := Box("box-3b", Pos(7, 4))
  const K3At32 := Piston(K3, Pos(3, 2), Right, 2)
  const F3h := SlideFloor("slideFloor-3h", Pos(5, 2), Right)
  const F3i := SlideFloor("slideFloor-3i", Pos(6, 2), Right)

  /** The first seven objects, with the player at `p`. */
  function Map3Front(p: Pos): seq<GameObject> {
    [G3, Player(P3, p), F3a, F3b, F3c, F3d, F3e]
  }

  /** The last seven objects: no player among them. */
  function Map3Back(): seq<GameObject> {
    [F3f, F3g, B3a, B3b, K3At32, F3h, F3i]
  }

  /** The layout with the player at `p`: the piston is out in phase 2. */
  function Map3At(p: Pos): (objs: Objects)
    ensures PlayerIndex(objs) == 1 && PlayerOf(objs) == Player(P3, p)
  {
    var objs := Map3Front(p) + Map3Back();
    assert objs[0] == G3 && objs[1] == Player(P3, p);
    objs
  }

  /** A tick only ever rewrites the player's entry. */
  lemma Map3Relocate(p: Pos, q: Pos)
    ensures WithPlayerAt(Map3At(p), q) == Map3At(q)
  {
    var r := WithPlayerAt(Map3At(p), q);
    assert forall j :: 0 <= j < 14 ==> r[j] == Map3At(q)[j];
  }

  /** The only goal is at (7,2). */
  lemma Map3NoGoal(p: Pos)
    requires p != Pos(7, 2)
    ensures !GoalAt(Map3At(p), p)
  {
    var objs := Map3At(p);
    assert forall i :: 0 <= i < |objs| ==> objs[i] == (Map3Front(p) + Map3Back())[i];
    assert forall i :: 0 <= i < |objs| && objs[i].Goal? ==> i == 0;
  }

  // The walk of every stay tick of the run, one lemma apiece, then the goal
  // scan and the relocation with it.
  lemma Map3Front1()
    ensures Settle(Map3Front(Pos(2, 4)), 1, P3, Pos(2, 4), false) == Settling(Pos(3, 4), true, [MoveTo(P3, 3, 4)])
  {}
  lemma Map3Back1()
    ensures Settle(Map3Back(), 1, P3, Pos(3, 4), true) == Settling(Pos(3, 4), true, [Deactivated(K3, Right)])
  {}
  lemma Map3Settle1()
    ensures Settle(Map3Front(Pos(2, 4)) + Map3Back(), 1, P3, Pos(2, 4), false) == Settling(Pos(3, 4), true, [MoveTo(P3, 3, 4), Deactivated(K3, Right)])
  {
    Map3Front1(); Map3Back1();
    EngineLaws.SettleJoin(Map3Front(Pos(2, 4)), Map3Back(), 1, P3, Pos(2, 4), Settling(Pos(3, 4), true, [MoveTo(P3, 3, 4)]), Settling(Pos(3, 4), true, [Deactivated(K3, Right)]));
  }
  lemma Map3Settles1()
    ensures SettlesTo(Map3At(Pos(2, 4)), P3, Pos(2, 4), 1, Settling(Pos(3, 4), true, [MoveTo(P3, 3, 4), Deactivated(K3, Right)]), Map3At(Pos(3, 4)))
  {
    Map3Relocate(Pos(2, 4), Pos(3, 4)); Map3Settle1(); Map3NoGoal(Pos(2, 4));
    assert Map3At(Pos(2, 4)) == Map3Front(Pos(2, 4)) + Map3Back();
  }
  lemma Map3Front2()
    ensures Settle(Map3Front(Pos(3, 4)), 2, P3, Pos(3, 4), false) == Settling(Pos(4, 4), true, [MoveTo(P3, 4, 4)])
  {}
  lemma Map3Back2()
    ensures Settle(Map3Back(), 2, P3, Pos(4, 4), true) == Settling(Pos(4, 4), true, [MoveTo(P3, 4, 4), Activated(K3, Right)])
  {}
  lemma Map3Settle2()
    ensures Settle(Map3Front(Pos(3, 4)) + Map3Back(), 2, P3, Pos(3, 4), false) == Settling(Pos(4, 4), true, [MoveTo(P3, 4, 4), MoveTo(P3, 4, 4), Activated(K3, Right)])
  {
    Map3Front2(); Map3Back2();
    EngineLaws.SettleJoin(Map3Front(Pos(3, 4)), Map3Back(), 2, P3, Pos(3, 4), Settling(Pos(4, 4), true, [MoveTo(P3, 4, 4)]), Settling(Pos(4, 4), true, [MoveTo(P3, 4, 4), Activated(K3, Right)]));
  }
  lemma Map3Settles2()
    ensures SettlesTo(Map3At(Pos(3, 4)), P3, Pos(3, 4), 2, Settling(Pos(4, 4), true, [MoveTo(P3, 4, 4), MoveTo(P3, 4, 4), Activated(K3, Right)]), Map3At(Pos(4, 4)))
  {
    Map3Relocate(Pos(3, 4), Pos(4, 4)); Map3Settle2(); Map3NoGoal(Pos(3, 4));
    assert Map3At(Pos(3, 4)) == Map3Front(Pos(3, 4)) + Map3Back();
  }
  lemma Map3Front3()
    ensures Settle(Map3Front(Pos(4, 4)), 3, P3, Pos(4, 4), false) == Settling(Pos(5, 4), true, [MoveTo(P3, 5, 4)])
  {}
  lemma Map3Back3()
    ensures Settle(Map3Back(), 3, P3, Pos(5, 4), true) == Settling(Pos(5, 4), true, [Deactivated(K3, Right)])
  {}
  lemma Map3Settle3()
    ensures Settle(Map3Front(Pos(4, 4)) + Map3Back(), 3, P3, Pos(4, 4), false) == Settling(Pos(5, 4), true, [MoveTo(P3, 5, 4), Deactivated(K3, Right)])
  {
    Map3Front3(); Map3Back3();
    EngineLaws.SettleJoin(Map3Front(Pos(4, 4)), Map3Back(), 3, P3, Pos(4, 4), Settling(Pos(5, 4), true, [MoveTo(P3, 5, 4)]), Settling(Pos(5, 4), true, [Deactivated(K3, Right)]));
  }
  lemma Map3Settles3()
    ensures SettlesTo(Map3At(Pos(4, 4)), P3, Pos(4, 4), 3, Settling(Pos(5, 4), true, [MoveTo(P3, 5, 4), Deactivated(K3, Right)]), Map3At(Pos(5, 4)))
  {
    Map3Relocate(Pos(4, 4), Pos(5, 4)); Map3Settle3(); Map3NoGoal(Pos(4, 4));
    assert Map3At(Pos(4, 4)) == Map3Front(Pos(4, 4)) + Map3Back();
  }
  lemma Map3Front4()
    ensures Settle(Map3Front(Pos(5, 4)), 4, P3, Pos(5, 4), false) == Settling(Pos(6, 4), true, [MoveTo(P3, 6, 4)])
  {}
  lemma Map3Back4()
    ensures Settle(Map3Back(), 4, P3, Pos(6, 4), true) == Settling(Pos(6, 4), true, [Deactivated(K3, Right)])
  {}
  lemma Map3Settle4()
    ensures Settle(Map3Front(Pos(5, 4)) + Map3Back(), 4, P3, Pos(5, 4), false) == Settling(Pos(6, 4), true, [MoveTo(P3, 6, 4), Deactivated(K3, Right)])
  {
    Map3Front4(); Map3Back4();
    EngineLaws.SettleJoin(Map3Front(Pos(5, 4)), Map3Back(), 4, P3, Pos(5, 4), Settling(Pos(6, 4), true, [MoveTo(P3, 6, 4)]), Settling(Pos(6, 4), true, [Deactivated(K3, Right)]));
  }
  lemma Map3Settles4()
    ensures SettlesTo(Map3At(Pos(5, 4)), P3, Pos(5, 4), 4, Settling(Pos(6, 4), true, [MoveTo(P3, 6, 4), Deactivated(K3, Right)]), Map3At(Pos(6, 4)))
  {
    Map3Relocate(Pos(5, 4), Pos(6, 4)); Map3Settle4(); Map3NoGoal(Pos(5, 4));
    assert Map3At(Pos(5, 4)) == Map3Front(Pos(5, 4)) + Map3Back();
  }
  lemma Map3Front5()
    ensures Settle(Map3Front(Pos(5, 4)), 0, P3, Pos(5, 4), false) == Settling(Pos(6, 4), true, [MoveTo(P3, 6, 4)])
  {}
  lemma Map3Back5()
    ensures Settle(Map3Back(), 0, P3, Pos(6, 4), true) == Settling(Pos(6, 4), true, [Deactivated(K3, Right)])
  {}
  lemma Map3Settle5()
    ensures Settle(Map3Front(Pos(5, 4)) + Map3Back(), 0, P3, Pos(5, 4), false) == Settling(Pos(6, 4), true, [MoveTo(P3, 6, 4), Deactivated(K3, Right)])
  {
    Map3Front5(); Map3Back5();
    EngineLaws.SettleJoin(Map3Front(Pos(5, 4)), Map3Back(), 0, P3, Pos(5, 4), Settling(Pos(6, 4), true, [MoveTo(P3, 6, 4)]), Settling(Pos(6, 4), true, [Deactivated(K3, Right)]));
  }
  lemma Map3Settles5()
    ensures SettlesTo(Map3At(Pos(5, 4)), P3, Pos(5, 4), 0, Settling(Pos(6, 4), true, [MoveTo(P3, 6, 4), Deactivated(K3, Right)]), Map3At(Pos(6, 4)))
  {
    Map3Relocate(Pos(5, 4), Pos(6, 4)); Map3Settle5(); Map3NoGoal(Pos(5, 4));
    assert Map3At(Pos(5, 4)) == Map3Front(Pos(5, 4)) + Map3Back();
  }
  lemma Map3Front6()
    ensures Settle(Map3Front(Pos(6, 4)), 1, P3, Pos(6, 4), false) == Settling(Pos(6, 5), true, [MoveTo(P3, 6, 5)])
  {}
  lemma Map3Back6()
    ensures Settle(Map3Back(), 1, P3, Pos(6, 5), true) == Settling(Pos(6, 5), true, [Deactivated(K3, Right)])
  {}
  lemma Map3Settle6()
    ensures Settle(Map3Front(Pos(6, 4)) + Map3Back(), 1, P3, Pos(6, 4), false) == Settling(Pos(6, 5), true, [MoveTo(P3, 6, 5), Deactivated(K3, Right)])
  {
    Map3Front6(); Map3Back6();
    EngineLaws.SettleJoin(Map3Front(Pos(6, 4)), Map3Back(), 1, P3, Pos(6, 4), Settling(Pos(6, 5), true, [MoveTo(P3, 6, 5)]), Settling(Pos(6, 5), true, [Deactivated(K3, Right)]));
  }
  lemma Map3Settles6()
    ensures SettlesTo(Map3At(Pos(6, 4)), P3, Pos(6, 4), 1, Settling(Pos(6, 5), true, [MoveTo(P3, 6, 5), Deactivated(K3, Right)]), Map3At(Pos(6, 5)))
  {
    Map3Relocate(Pos(6, 4), Pos(6, 5)); Map3Settle6(); Map3NoGoal(Pos(6, 4));
    assert Map3At(Pos(6, 4)) == Map3Front(Pos(6, 4)) + Map3Back();
  }
  lemma Map3Front7()
    ensures Settle(Map3Front(Pos(6, 5)), 2, P3, Pos(6, 5), false) == Settling(Pos(6, 5), false, [])
  {}
  lemma Map3Back7()
    ensures Settle(Map3Back(), 2, P3, Pos(6, 5), false) == Settling(Pos(6, 6), true, [MoveTo(P3, 6, 6), MoveTo(P3, 6, 6), Activated(K3, Right)])
  {}
  lemma Map3Settle7()
    ensures Settle(Map3Front(Pos(6, 5)) + Map3Back(), 2, P3, Pos(6, 5), false) == Settling(Pos(6, 6), true, [MoveTo(P3, 6, 6), MoveTo(P3, 6, 6), Activated(K3, Right)])
  {
    Map3Front7(); Map3Back7();
    EngineLaws.SettleJoin(Map3Front(Pos(6, 5)), Map3Back(), 2, P3, Pos(6, 5), Settling(Pos(6, 5), false, []), Settling(Pos(6, 6), true, [MoveTo(P3, 6, 6), MoveTo(P3, 6, 6), Activated(K3, Right)]));
  }
  lemma Map3Settles7()
    ensures SettlesTo(Map3At(Pos(6, 5)), P3, Pos(6, 5), 2, Settling(Pos(6, 6), true, [MoveTo(P3, 6, 6), MoveTo(P3, 6, 6), Activated(K3, Right)]), Map3At(Pos(6, 6)))
  {
    Map3Relocate(Pos(6, 5), Pos(6, 6)); Map3Settle7(); Map3NoGoal(Pos(6, 5));
    assert Map3At(Pos(6, 5)) == Map3Front(Pos(6, 5)) + Map3Back();
  }
  lemma Map3Front8()
    ensures Settle(Map3Front(Pos(6, 6)), 3, P3, Pos(6, 6), false) == Settling(Pos(6, 6), false, [])
  {}
  lemma Map3Back8()
    ensures Settle(Map3Back(), 3, P3, Pos(6, 6), false) == Settling(Pos(5, 6), true, [MoveTo(P3, 5, 6), Deactivated(K3, Right)])
  {}
  lemma Map3Settle8()
    ensures Settle(Map3Front(Pos(6, 6)) + Map3Back(), 3, P3, Pos(6, 6), false) == Settling(Pos(5, 6), true, [MoveTo(P3, 5, 6), Deactivated(K3, Right)])
  {
    Map3Front8(); Map3Back8();
    EngineLaws.SettleJoin(Map3Front(Pos(6, 6)), Map3Back(), 3, P3, Pos(6, 6), Settling(Pos(6, 6), false, []), Settling(Pos(5, 6), true, [MoveTo(P3, 5, 6), Deactivated(K3, Right)]));
  }
  lemma Map3Settles8()
    ensures SettlesTo(Map3At(Pos(6, 6)), P3, Pos(6, 6), 3, Settling(Pos(5, 6), true, [MoveTo(P3, 5, 6), Deactivated(K3, Right)]), Map3At(Pos(5, 6)))
  {
    Map3Relocate(Pos(6, 6), Pos(5, 6)); Map3Settle8(); Map3NoGoal(Pos(6, 6));
    assert Map3At(Pos(6, 6)) == Map3Front(Pos(6, 6)) + Map3Back();
  }
  lemma Map3Front9()
    ensures Settle(Map3Front(Pos(5, 6)), 4, P3, Pos(5, 6), false) == Settling(Pos(5, 6), false, [])
  {}
  lemma Map3Back9()
    ensures Settle(Map3Back(), 4, P3, Pos(5, 6), false) == Settling(Pos(5, 6), false, [Deactivated(K3, Right)])
  {}
  lemma Map3Settle9()
    ensures Settle(Map3Front(Pos(5, 6)) + Map3Back(), 4, P3, Pos(5, 6), false) == Settling(Pos(5, 6), false, [Deactivated(K3, Right)])
  {
    Map3Front9(); Map3Back9();
    EngineLaws.SettleJoin(Map3Front(Pos(5, 6)), Map3Back(), 4, P3, Pos(5, 6), Settling(Pos(5, 6), false, []), Settling(Pos(5, 6), false, [Deactivated(K3, Right)]));
  }
  lemma Map3Settles9()
    ensures SettlesTo(Map3At(Pos(5, 6)), P3, Pos(5, 6), 4, Settling(Pos(5, 6), false, [Deactivated(K3, Right)]), Map3At(Pos(5, 6)))
  {
    Map3Relocate(Pos(5, 6), Pos(5, 6)); Map3Settle9(); Map3NoGoal(Pos(5, 6));
    assert Map3At(Pos(5, 6)) == Map3Front(Pos(5, 6)) + Map3Back();
  }

  // The scans of the two `moveX` and of the loop condition, each split
  // into the two halves of the layout.
  lemma Map3Free1Front()
    ensures !Blocked(Map3Front(Pos(1, 4)), Pos(2, 4), 0)
  {}
  lemma Map3Free1Back()
    ensures !Blocked(Map3Back(), Pos(2, 4), 0)
  {}
  lemma Map3Free1()
    ensures !Blocked(Map3At(Pos(1, 4)), Pos(2, 4), 0)
  {
    Map3Free1Front(); Map3Free1Back();
    EngineLaws.BlockedAppend(Map3Front(Pos(1, 4)), Map3Back(), Pos(2, 4), 0);
  }
  lemma Map3Free5Front()
    ensures !Blocked(Map3Front(Pos(6, 4)), Pos(5, 4), 4)
  {}
  lemma Map3Free5Back()
    ensures !Blocked(Map3Back(), Pos(5, 4), 4)
  {}
  lemma Map3Free5()
    ensures !Blocked(Map3At(Pos(6, 4)), Pos(5, 4), 4)
  {
    Map3Free5Front(); Map3Free5Back();
    EngineLaws.BlockedAppend(Map3Front(Pos(6, 4)), Map3Back(), Pos(5, 4), 4);
  }
  lemma Map3Open2Front()
    ensures !Obstacle.AnyObstacle(true, Map3Front(Pos(3, 4)), P3, Pos(4, 4), 1)
  {}
  lemma Map3Open2Back()
    ensures !Obstacle.AnyObstacle(true, Map3Back(), P3, Pos(4, 4), 1)
  {}
  lemma Map3Open2()
    ensures !Obstacle.AnyObstacle(true, Map3At(Pos(3, 4)), P3, Pos(4, 4), 1)
  {
    Map3Open2Front(); Map3Open2Back();
    Obstacle.AnyObstacleAppend(true, Map3Front(Pos(3, 4)), Map3Back(), P3, Pos(4, 4), 1);
  }
  lemma Map3Open3Front()
    ensures !Obstacle.AnyObstacle(true, Map3Front(Pos(4, 4)), P3, Pos(5, 4), 2)
  {}
  lemma Map3Open3Back()
    ensures !Obstacle.AnyObstacle(true, Map3Back(), P3, Pos(5, 4), 2)
  {}
  lemma Map3Open3()
    ensures !Obstacle.AnyObstacle(true, Map3At(Pos(4, 4)), P3, Pos(5, 4), 2)
  {
    Map3Open3Front(); Map3Open3Back();
    Obstacle.AnyObstacleAppend(true, Map3Front(Pos(4, 4)), Map3Back(), P3, Pos(5, 4), 2);
  }
  lemma Map3Open4Front()
    ensures !Obstacle.AnyObstacle(true, Map3Front(Pos(5, 4)), P3, Pos(6, 4), 3)
  {}
  lemma Map3Open4Back()
    ensures !Obstacle.AnyObstacle(true, Map3Back(), P3, Pos(6, 4), 3)
  {}
  lemma Map3Open4()
    ensures !Obstacle.AnyObstacle(true, Map3At(Pos(5, 4)), P3, Pos(6, 4), 3)
  {
    Map3Open4Front(); Map3Open4Back();
    Obstacle.AnyObstacleAppend(true, Map3Front(Pos(5, 4)), Map3Back(), P3, Pos(6, 4), 3);
  }
  lemma Map3WallFront()
    ensures !Obstacle.AnyObstacle(true, Map3Front(Pos(6, 4)), P3, Pos(7, 4), 4)
  {}
  lemma Map3WallBack()
    ensures Obstacle.AnyObstacle(true, Map3Back(), P3, Pos(7, 4), 4)
  {}
  lemma Map3Wall()
    ensures Obstacle.AnyObstacle(true, Map3At(Pos(6, 4)), P3, Pos(7, 4), 4)
  {
    Map3WallFront(); Map3WallBack();
    Obstacle.AnyObstacleAppend(true, Map3Front(Pos(6, 4)), Map3Back(), P3, Pos(7, 4), 4);
  }

  // Each command of the run, stated about the session it starts from.
  lemma Map3Ready1(s: Session)
    requires s.world == World(Map3At(Pos(1, 4)), 0)
    ensures PlayerOf(s.world.objects) == Player(P3, Pos(1, 4))
    ensures !Blocked(s.world.objects, Pos(2, 4), s.world.timer)
    ensures WithPlayerAt(s.world.objects, Pos(2, 4)) == Map3At(Pos(2, 4))
    ensures SettlesTo(Map3At(Pos(2, 4)), P3, Pos(2, 4), NextPhase(s.world.timer), Settling(Pos(3, 4), true, [MoveTo(P3, 3, 4), Deactivated(K3, Right)]), Map3At(Pos(3, 4)))
  {
    Map3Free1(); Map3Relocate(Pos(1, 4), Pos(2, 4)); Map3Settles1();
  }
  lemma Map3Command1(s: Session)
    requires s.world == World(Map3At(Pos(1, 4)), 0) && Energy(s) > 0
    ensures MoveCommand(s, Right) ==
              Session(World(Map3At(Pos(3, 4)), 1),
                      s.movePlan + [[MoveTo(P3, 2, 4)], [MoveTo(P3, 3, 4), Deactivated(K3, Right)]],
                      s.energyHistory + [Energy(s) - 1, Energy(s) - 1])
  {
    Map3Ready1(s);
    MoveVia(s, Right, P3, Pos(1, 4), Pos(2, 4), Map3At(Pos(2, 4)), Settling(Pos(3, 4), true, [MoveTo(P3, 3, 4), Deactivated(K3, Right)]), Map3At(Pos(3, 4)));
  }
  lemma Map3Ready2(s: Session)
    requires s.world == World(Map3At(Pos(3, 4)), 1)
    ensures PlayerOf(s.world.objects) == Player(P3, Pos(3, 4))
    ensures SettlesTo(s.world.objects, P3, Pos(3, 4), NextPhase(s.world.timer), Settling(Pos(4, 4), true, [MoveTo(P3, 4, 4), MoveTo(P3, 4, 4), Activated(K3, Right)]), Map3At(Pos(4, 4)))
  {
    Map3Settles2();
  }
  lemma Map3Command2(s: Session)
    requires s.world == World(Map3At(Pos(3, 4)), 1)
    ensures StayCommand(GameMap3, s) ==
              Session(World(Map3At(Pos(4, 4)), 2), s.movePlan + [[MoveTo(P3, 4, 4), MoveTo(P3, 4, 4), Activated(K3, Right)]], s.energyHistory + [Energy(s)])
  {
    Map3Ready2(s);
    StayVia(GameMap3, s, P3, Pos(3, 4), Settling(Pos(4, 4), true, [MoveTo(P3, 4, 4), MoveTo(P3, 4, 4), Activated(K3, Right)]), Map3At(Pos(4, 4)));
  }
  lemma Map3Ready3(s: Session)
    requires s.world == World(Map3At(Pos(4, 4)), 2)
    ensures PlayerOf(s.world.objects) == Player(P3, Pos(4, 4))
    ensures SettlesTo(s.world.objects, P3, Pos(4, 4), NextPhase(s.world.timer), Settling(Pos(5, 4), true, [MoveTo(P3, 5, 4), Deactivated(K3, Right)]), Map3At(Pos(5, 4)))
  {
    Map3Settles3();
  }
  lemma Map3Command3(s: Session)
    requires s.world == World(Map3At(Pos(4, 4)), 2)
    ensures StayCommand(GameMap3, s) ==
              Session(World(Map3At(Pos(5, 4)), 3), s.movePlan + [[MoveTo(P3, 5, 4), Deactivated(K3, Right)]], s.energyHistory + [Energy(s)])
  {
    Map3Ready3(s);
    StayVia(GameMap3, s, P3, Pos(4, 4), Settling(Pos(5, 4), true, [MoveTo(P3, 5, 4), Deactivated(K3, Right)]), Map3At(Pos(5, 4)));
  }
  lemma Map3Ready4(s: Session)
    requires s.world == World(Map3At(Pos(5, 4)), 3)
    ensures PlayerOf(s.world.objects) == Player(P3, Pos(5, 4))
    ensures SettlesTo(s.world.objects, P3, Pos(5, 4), NextPhase(s.world.timer), Settling(Pos(6, 4), true, [MoveTo(P3, 6, 4), Deactivated(K3, Right)]), Map3At(Pos(6, 4)))
  {
    Map3Settles4();
  }
  lemma Map3Command4(s: Session)
    requires s.world == World(Map3At(Pos(5, 4)), 3)
    ensures StayCommand(GameMap3, s) ==
              Session(World(Map3At(Pos(6, 4)), 4), s.movePlan + [[MoveTo(P3, 6, 4), Deactivated(K3, Right)]], s.energyHistory + [Energy(s)])
  {
    Map3Ready4(s);
    StayVia(GameMap3, s, P3, Pos(5, 4), Settling(Pos(6, 4), true, [MoveTo(P3, 6, 4), Deactivated(K3, Right)]), Map3At(Pos(6, 4)));
  }
  lemma Map3Ready5(s: Session)
    requires s.world == World(Map3At(Pos(6, 4)), 4)
    ensures PlayerOf(s.world.objects) == Player(P3, Pos(6, 4))
    ensures !Blocked(s.world.objects, Pos(5, 4), s.world.timer)
    ensures WithPlayerAt(s.world.objects, Pos(5, 4)) == Map3At(Pos(5, 4))
    ensures SettlesTo(Map3At(Pos(5, 4)), P3, Pos(5, 4), NextPhase(s.world.timer), Settling(Pos(6, 4), true, [MoveTo(P3, 6, 4), Deactivated(K3, Right)]), Map3At(Pos(6, 4)))
  {
    Map3Free5(); Map3Relocate(Pos(6, 4), Pos(5, 4)); Map3Settles5();
  }
  lemma Map3Command5(s: Session)
    requires s.world == World(Map3At(Pos(6, 4)), 4) && Energy(s) > 0
    ensures MoveCommand(s, Left) ==
              Session(World(Map3At(Pos(6, 4)), 0),
                      s.movePlan + [[MoveTo(P3, 5, 4)], [MoveTo(P3, 6, 4), Deactivated(K3, Right)]],
                      s.energyHistory + [Energy(s) - 1, Energy(s) - 1])
  {
    Map3Ready5(s);
    MoveVia(s, Left, P3, Pos(6, 4), Pos(5, 4), Map3At(Pos(5, 4)), Settling(Pos(6, 4), true, [MoveTo(P3, 6, 4), Deactivated(K3, Right)]), Map3At(Pos(6, 4)));
  }
  lemma Map3Ready6(s: Session)
    requires s.world == World(Map3At(Pos(6, 4)), 0)
    ensures PlayerOf(s.world.objects) == Player(P3, Pos(6, 4))
    ensures SettlesTo(s.world.objects, P3, Pos(6, 4), NextPhase(s.world.timer), Settling(Pos(6, 5), true, [MoveTo(P3, 6, 5), Deactivated(K3, Right)]), Map3At(Pos(6, 5)))
  {
    Map3Settles6();
  }
  lemma Map3Command6(s: Session)
    requires s.world == World(Map3At(Pos(6, 4)), 0)
    ensures StayCommand(GameMap3, s) ==
              Session(World(Map3At(Pos(6, 5)), 1), s.movePlan + [[MoveTo(P3, 6, 5), Deactivated(K3, Right)]], s.energyHistory + [Energy(s)])
  {
    Map3Ready6(s);
    StayVia(GameMap3, s, P3, Pos(6, 4), Settling(Pos(6, 5), true, [MoveTo(P3, 6, 5), Deactivated(K3, Right)]), Map3At(Pos(6, 5)));
  }
  lemma Map3Ready7(s: Session)
    requires s.world == World(Map3At(Pos(6, 5)), 1)
    ensures PlayerOf(s.world.objects) == Player(P3, Pos(6, 5))
    ensures SettlesTo(s.world.objects, P3, Pos(6, 5), NextPhase(s.world.timer), Settling(Pos(6, 6), true, [MoveTo(P3, 6, 6), MoveTo(P3, 6, 6), Activated(K3, Right)]), Map3At(Pos(6, 6)))
  {
    Map3Settles7();
  }
  lemma Map3Command7(s: Session)
    requires s.world == World(Map3At(Pos(6, 5)), 1)
    ensures StayCommand(GameMap3, s) ==
              Session(World(Map3At(Pos(6, 6)), 2), s.movePlan + [[MoveTo(P3, 6, 6), MoveTo(P3, 6, 6), Activated(K3, Right)]], s.energyHistory + [Energy(s)])
  {
    Map3Ready7(s);
    StayVia(GameMap3, s, P3, Pos(6, 5), Settling(Pos(6, 6), true, [MoveTo(P3, 6, 6), MoveTo(P3, 6, 6), Activated(K3, Right)]), Map3At(Pos(6, 6)));
  }
  lemma Map3Ready8(s: Session)
    requires s.world == World(Map3At(Pos(6, 6)), 2)
    ensures PlayerOf(s.world.objects) == Player(P3, Pos(6, 6))
    ensures SettlesTo(s.world.objects, P3, Pos(6, 6), NextPhase(s.world.timer), Settling(Pos(5, 6), true, [MoveTo(P3, 5, 6), Deactivated(K3, Right)]), Map3At(Pos(5, 6)))
  {
    Map3Settles8();
  }
  lemma Map3Command8(s: Session)
    requires s.world == World(Map3At(Pos(6, 6)), 2)
    ensures StayCommand(GameMap3, s) ==
              Session(World(Map3At(Pos(5, 6)), 3), s.movePlan + [[MoveTo(P3, 5, 6), Deactivated(K3, Right)]], s.energyHistory + [Energy(s)])
  {
    Map3Ready8(s);
    StayVia(GameMap3, s, P3, Pos(6, 6), Settling(Pos(5, 6), true, [MoveTo(P3, 5, 6), Deactivated(K3, Right)]), Map3At(Pos(5, 6)));
  }
  lemma Map3Ready9(s: Session)
    requires s.world == World(Map3At(Pos(5, 6)), 3)
    ensures PlayerOf(s.world.objects) == Player(P3, Pos(5, 6))
    ensures SettlesTo(s.world.objects, P3, Pos(5, 6), NextPhase(s.world.timer), Settling(Pos(5, 6), false, [Deactivated(K3, Right)]), Map3At(Pos(5, 6)))
  {
    Map3Settles9();
  }
  lemma Map3Command9(s: Session)
    requires s.world == World(Map3At(Pos(5, 6)), 3)
    ensures StayCommand(GameMap3, s) ==
              Session(World(Map3At(Pos(5, 6)), 4), s.movePlan + [[Deactivated(K3, Right)]], s.energyHistory + [Energy(s)])
  {
    Map3Ready9(s);
    StayVia(GameMap3, s, P3, Pos(5, 6), Settling(Pos(5, 6), false, [Deactivated(K3, Right)]), Map3At(Pos(5, 6)));
  }

  /** The loop condition `!isObstacleRight()` of game map 3. */
  function NoObstacleRight3(s: Session): bool {
    !LookAhead(GameMap3, s, Right)
  }

  /** The loop body `stay()` of game map 3. */
  function Stay3(s: Session): Session {
    StayCommand(GameMap3, s)
  }

  // The loop condition on the four states the loop visits.
  lemma Map3Go2(s: Session)
    requires s.world == World(Map3At(Pos(3, 4)), 1)
    ensures NoObstacleRight3(s)
  {
    Map3Open2();
  }
  lemma Map3Go3(s: Session)
    requires s.world == World(Map3At(Pos(4, 4)), 2)
    ensures NoObstacleRight3(s)
  {
    Map3Open3();
  }
  lemma Map3Go4(s: Session)
    requires s.world == World(Map3At(Pos(5, 4)), 3)
    ensures NoObstacleRight3(s)
  {
    Map3Open4();
  }
  lemma Map3Halt(s: Session)
    requires s.world == World(Map3At(Pos(6, 4)), 4)
    ensures !NoObstacleRight3(s)
  {
    Map3Wall();
  }

  // The states after one, two and three iterations of the loop body.
  lemma Map3Iter1(s1: Session)
    requires s1.world == World(Map3At(Pos(3, 4)), 1)
    ensures Repeat.Iterate(Stay3, s1, 1).world == World(Map3At(Pos(4, 4)), 2)
    ensures Repeat.Iterate(Stay3, s1, 1).movePlan ==
              s1.movePlan + [[MoveTo(P3, 4, 4), MoveTo(P3, 4, 4), Activated(K3, Right)]]
    ensures Repeat.Iterate(Stay3, s1, 1).energyHistory == s1.energyHistory + [Energy(s1)]
  {
    Map3Command2(s1);
    assert Repeat.Iterate(Stay3, s1, 0) == s1;
  }
  lemma Map3Iter2(s1: Session)
    requires s1.world == World(Map3At(Pos(3, 4)), 1)
    ensures Repeat.Iterate(Stay3, s1, 2).world == World(Map3At(Pos(5, 4)), 3)
    ensures Repeat.Iterate(Stay3, s1, 2).movePlan ==
              s1.movePlan + [[MoveTo(P3, 4, 4), MoveTo(P3, 4, 4), Activated(K3, Right)]] + [[MoveTo(P3, 5, 4), Deactivated(K3, Right)]]
    ensures Repeat.Iterate(Stay3, s1, 2).energyHistory == s1.energyHistory + [Energy(s1)] + [Energy(s1)]
  {
    Map3Iter1(s1);
    Map3Command3(Repeat.Iterate(Stay3, s1, 1));
  }
  lemma Map3Iter3(s1: Session)
    requires s1.world == World(Map3At(Pos(3, 4)), 1)
    ensures Repeat.Iterate(Stay3, s1, 3).world == World(Map3At(Pos(6, 4)), 4)
    ensures Repeat.Iterate(Stay3, s1, 3).movePlan ==
              s1.movePlan + [[MoveTo(P3, 4, 4), MoveTo(P3, 4, 4), Activated(K3, Right)]] + [[MoveTo(P3, 5, 4), Deactivated(K3, Right)]] + [[MoveTo(P3, 6, 4), Deactivated(K3, Right)]]
    ensures Repeat.Iterate(Stay3, s1, 3).energyHistory == s1.energyHistory + [Energy(s1)] + [Energy(s1)] + [Energy(s1)]
  {
    Map3Iter2(s1);
    Map3Command4(Repeat.Iterate(Stay3, s1, 2));
  }

  /** A loop whose condition holds on the first three states and fails on
      the fourth runs its body exactly three times. */
  lemma LoopOfThree<S>(s: S, cond: S -> bool, action: S -> S)
    requires cond(Repeat.Iterate(action, s, 0)) && cond(Repeat.Iterate(action, s, 1))
    requires cond(Repeat.Iterate(action, s, 2)) && !cond(Repeat.Iterate(action, s, 3))
    ensures Repeat.Repeat(s, cond, action) == (Repeat.Iterate(action, s, 3), 3)
  {
    forall k | 0 <= k < 3
      ensures cond(Repeat.Iterate(action, s, k))
    {
    }
    Repeat.RepeatRunsExactly(s, cond, action, 3);
  }

  /** The loop rides the conveyor from (3,4) to (6,4) and stops in front of
      the box at (7,4): exactly three `stay()`, each logging a tick and
      repeating the energy value. */
  lemma Map3Loop(s1: Session)
    requires s1.world == World(Map3At(Pos(3, 4)), 1)
    ensures Repeat.Repeat(s1, NoObstacleRight3, Stay3) == (Repeat.Iterate(Stay3, s1, 3), 3)
  {
    Map3Iter1(s1); Map3Iter2(s1); Map3Iter3(s1);
    assert Repeat.Iterate(Stay3, s1, 0) == s1;
    Map3Go2(Repeat.Iterate(Stay3, s1, 0));
    Map3Go3(Repeat.Iterate(Stay3, s1, 1));
    Map3Go4(Repeat.Iterate(Stay3, s1, 2));
    Map3Halt(Repeat.Iterate(Stay3, s1, 3));
    LoopOfThree(s1, NoObstacleRight3, Stay3);
  }

  const Map3Tail := [MoveCmd(Left), StayCmd, StayCmd, StayCmd, StayCmd]

  /** The script after the loop from its `i`-th command on. */
  lemma Map3From4(s: Session)
    requires s.world == World(Map3At(Pos(5, 6)), 3)
    ensures Run(GameMap3, s, Map3Tail[4..]).world == World(Map3At(Pos(5, 6)), 4)
    ensures Run(GameMap3, s, Map3Tail[4..]).movePlan ==
              s.movePlan + [[Deactivated(K3, Right)]]
    ensures Run(GameMap3, s, Map3Tail[4..]).energyHistory == s.energyHistory + [Energy(s)]
  {
    Map3Command9(s);
    var next := StayCommand(GameMap3, s);
    RunStep(GameMap3, s, Map3Tail[4..], next);
    assert Map3Tail[4..][1..] == Map3Tail[5..];
  }

  lemma Map3From3(s: Session)
    requires s.world == World(Map3At(Pos(6, 6)), 2)
    ensures Run(GameMap3, s, Map3Tail[3..]).world == World(Map3At(Pos(5, 6)), 4)
    ensures Run(GameMap3, s, Map3Tail[3..]).movePlan ==
              s.movePlan + [[MoveTo(P3, 5, 6), Deactivated(K3, Right)]] + [[Deactivated(K3, Right)]]
    ensures Run(GameMap3, s, Map3Tail[3..]).energyHistory == s.energyHistory + [Energy(s)] + [Energy(s)]
  {
    Map3Command8(s);
    var next := StayCommand(GameMap3, s);
    Map3From4(next);
    RunStep(GameMap3, s, Map3Tail[3..], next);
    assert Map3Tail[3..][1..] == Map3Tail[4..];
  }

  lemma Map3From2(s: Session)
    requires s.world == World(Map3At(Pos(6, 5)), 1)
    ensures Run(GameMap3, s, Map3Tail[2..]).world == World(Map3At(Pos(5, 6)), 4)
    ensures Run(GameMap3, s, Map3Tail[2..]).movePlan ==
              s.movePlan + [[MoveTo(P3, 6, 6), MoveTo(P3, 6, 6), Activated(K3, Right)]] + [[MoveTo(P3, 5, 6), Deactivated(K3, Right)]] + [[Deactivated(K3, Right)]]
    ensures Run(GameMap3, s, Map3Tail[2..]).energyHistory == s.energyHistory + [Energy(s)] + [Energy(s)] + [Energy(s)]
  {
    Map3Command7(s);
    var next := StayCommand(GameMap3, s);
    Map3From3(next);
    RunStep(GameMap3, s, Map3Tail[2..], next);
    assert Map3Tail[2..][1..] == Map3Tail[3..];
  }

  lemma Map3From1(s: Session)
    requires s.world == World(Map3At(Pos(6, 4)), 0)
    ensures Run(GameMap3, s, Map3Tail[1..]).world == World(Map3At(Pos(5, 6)), 4)
    ensures Run(GameMap3, s, Map3Tail[1..]).movePlan ==
              s.movePlan + [[MoveTo(P3, 6, 5), Deactivated(K3, Right)]] + [[MoveTo(P3, 6, 6), MoveTo(P3, 6, 6), Activated(K3, Right)]] + [[MoveTo(P3, 5, 6), Deactivated(K3, Right)]] + [[Deactivated(K3, Right)]]
    ensures Run(GameMap3, s, Map3Tail[1..]).energyHistory == s.energyHistory + [Energy(s)] + [Energy(s)] + [Energy(s)] + [Energy(s)]
  {
    Map3Command6(s);
    var next := StayCommand(GameMap3, s);
    Map3From2(next);
    RunStep(GameMap3, s, Map3Tail[1..], next);
    assert Map3Tail[1..][1..] == Map3Tail[2..];
  }

  lemma Map3From0(s: Session)
    requires s.world == World(Map3At(Pos(6, 4)), 4) && Energy(s) == 3
    ensures Run(GameMap3, s, Map3Tail[0..]).world == World(Map3At(Pos(5, 6)), 4)
    ensures Run(GameMap3, s, Map3Tail[0..]).movePlan ==
              s.movePlan + [[MoveTo(P3, 5, 4)], [MoveTo(P3, 6, 4), Deactivated(K3, Right)]] + [[MoveTo(P3, 6, 5), Deactivated(K3, Right)]] + [[MoveTo(P3, 6, 6), MoveTo(P3, 6, 6), Activated(K3, Right)]] + [[MoveTo(P3, 5, 6), Deactivated(K3, Right)]] + [[Deactivated(K3, Right)]]
    ensures Run(GameMap3, s, Map3Tail[0..]).energyHistory == s.energyHistory + [2, 2] + [2] + [2] + [2] + [2]
  {
    Map3Command5(s);
    var next := MoveCommand(s, Left);
    Map3From1(next);
    RunStep(GameMap3, s, Map3Tail[0..], next);
    assert Map3Tail[0..][1..] == Map3Tail[1..];
  }

  /** The whole script from any session at the start layout with a budget
      of 4, whatever its logs already hold. */
  lemma Map3Replay(s0: Session)
    requires s0.world == World(Map3At(Pos(1, 4)), 0) && Energy(s0) == 4
    ensures var r := Repeat.Repeat(MoveCommand(s0, Right), NoObstacleRight3, Stay3);
            var s := Run(GameMap3, r.0, Map3Tail);
            && r.1 == 3
            && s.movePlan == s0.movePlan
                              + [[MoveTo(P3, 2, 4)], [MoveTo(P3, 3, 4), Deactivated(K3, Right)]]
                              + [[MoveTo(P3, 4, 4), MoveTo(P3, 4, 4), Activated(K3, Right)]]
                              + [[MoveTo(P3, 5, 4), Deactivated(K3, Right)]]
                              + [[MoveTo(P3, 6, 4), Deactivated(K3, Right)]]
                              + [[MoveTo(P3, 5, 4)], [MoveTo(P3, 6, 4), Deactivated(K3, Right)]]
                              + [[MoveTo(P3, 6, 5), Deactivated(K3, Right)]]
                              + [[MoveTo(P3, 6, 6), MoveTo(P3, 6, 6), Activated(K3, Right)]]
                              + [[MoveTo(P3, 5, 6), Deactivated(K3, Right)]]
                              + [[Deactivated(K3, Right)]]
            && s.energyHistory == s0.energyHistory + [3, 3] + [3] + [3] + [3] + [2, 2] + [2] + [2] + [2] + [2]
  {
    Map3Command1(s0);
    var s1 := MoveCommand(s0, Right);
    Map3Loop(s1);
    Map3Iter3(s1);
    Map3From0(Repeat.Iterate(Stay3, s1, 3));
  }

  /** `moveRight; repeat(() => !isObstacleRight(), stay); moveLeft;` then
      four `stay()`, from a budget of 4. The slide floors carry the player
      one cell per stay tick, a floor under a player a floor has already
      moved this tick does nothing, an activating piston away from the
      player still reports it, and the final stay tick off the floors leaves
      only the piston's event. The loop runs three times; `stay()` never
      spends energy: 4,3,3,3,3,3,2,2,2,2,2,2. */
  lemma Map3Trace(s0: Session)
    requires s0 == CreateStart(Map3At(Pos(1, 4)), 4)
    ensures var r := Repeat.Repeat(MoveCommand(s0, Right), NoObstacleRight3, Stay3);
            var s := Run(GameMap3, r.0, Map3Tail);
            && r.1 == 3
            && s.movePlan == [[PlayerPlan(P3, Pos(1, 4), Start)]]
                              + [[MoveTo(P3, 2, 4)], [MoveTo(P3, 3, 4), Deactivated(K3, Right)]]
                              + [[MoveTo(P3, 4, 4), MoveTo(P3, 4, 4), Activated(K3, Right)]]
                              + [[MoveTo(P3, 5, 4), Deactivated(K3, Right)]]
                              + [[MoveTo(P3, 6, 4), Deactivated(K3, Right)]]
                              + [[MoveTo(P3, 5, 4)], [MoveTo(P3, 6, 4), Deactivated(K3, Right)]]
                              + [[MoveTo(P3, 6, 5), Deactivated(K3, Right)]]
                              + [[MoveTo(P3, 6, 6), MoveTo(P3, 6, 6), Activated(K3, Right)]]
                              + [[MoveTo(P3, 5, 6), Deactivated(K3, Right)]]
                              + [[Deactivated(K3, Right)]]
            && s.energyHistory == [4] + [3, 3] + [3] + [3] + [3] + [2, 2] + [2] + [2] + [2] + [2]
  {
    Map3Replay(s0);
  }
}

=== FILE: obstacle.dfy ===
/** The read-only look-ahead a script may call between ticks: is the cell
    next to the player blocked? */
module Obstacle {
  import opened GameObject
  import opened Engine

  /** Whether `o` blocks cell `pos` at phase `timer`. A piston always blocks
      its base and, while extended, its head cell; a box blocks its cell only
      in the map variants that count boxes (`boxesCount`); goals, slide floors
      and players never block. */
  function IsObstacle(boxesCount: bool, pos: Pos, o: GameObject, timer: int): (b: bool)
    ensures o.Goal? || o.SlideFloor? || o.Player? ==> !b
    ensures o.Box? ==> (b <==> boxesCount && pos == o.position)
    ensures o.Piston? ==> (b <==> pos == o.position || (timer == o.eventNumber && pos == Head(o)))
  {
    || (o.Piston? && ((timer == o.eventNumber && pos == Head(o)) || pos == o.position))
    || (boxesCount && o.Box? && pos == o.position)
  }

  /** The scan over every object whose id differs from the player's. */
  function AnyObstacle(boxesCount: bool, objs: seq<GameObject>, pid: string, pos: Pos, timer: int): (b: bool)
    ensures b <==> exists i :: 0 <= i < |objs| && objs[i].id != pid && IsObstacle(boxesCount, pos, objs[i], timer)
    decreases |objs|
  {
    if |objs| == 0 then false
    else if objs[0].id != pid && IsObstacle(boxesCount, pos, objs[0], timer) then true
    else
      var b := AnyObstacle(boxesCount, objs[1..], pid, pos, timer);
      assert forall i :: 1 <= i < |objs| ==> objs[i] == objs[1..][i - 1];
      b
  }

  /** The scan of `a + b` finds an obstacle exactly when the scan of `a` or
      the scan of `b` does. */
  lemma AnyObstacleAppend(boxesCount: bool, a: seq<GameObject>, b: seq<GameObject>, pid: string, pos: Pos, timer: int)
    ensures AnyObstacle(boxesCount, a + b, pid, pos, timer) ==
            (AnyObstacle(boxesCount, a, pid, pos, timer) || AnyObstacle(boxesCount, b, pid, pos, timer))
  {
    var ab := a + b;
    if AnyObstacle(boxesCount, ab, pid, pos, timer) {
      var i :| 0 <= i < |ab| && ab[i].id != pid && IsObstacle(boxesCount, pos, ab[i], timer);
      if i >= |a| {
        assert ab[i] == b[i - |a|];
      } else {
        assert ab[i] == a[i];
      }
    }
    if AnyObstacle(boxesCount, a, pid, pos, timer) {
      var i :| 0 <= i < |a| && a[i].id != pid && IsObstacle(boxesCount, pos, a[i], timer);
      assert ab[i] == a[i];
    }
    if AnyObstacle(boxesCount, b, pid, pos, timer) {
      var i :| 0 <= i < |b| && b[i].id != pid && IsObstacle(boxesCount, pos, b[i], timer);
      assert ab[i + |a|] == b[i];
    }
  }

  /** `isObstacleRight/Left/Up/Down`: the look-ahead at the cell one step from
      the player. Being a function of the world, it cannot change it. */
  function IsObstacleToward(boxesCount: bool, w: World, d: Direction): (b: bool)
    ensures var p := PlayerOf(w.objects);
            b <==> exists i :: 0 <= i < |w.objects| && w.objects[i].id != p.id &&
                              IsObstacle(boxesCount, Step(p.position, d), w.objects[i], w.timer)
  {
    var p := PlayerOf(w.objects);
    AnyObstacle(boxesCount, w.objects, p.id, Step(p.position, d), w.timer)
  }

  /** An obstacle reported by the look-ahead, in any variant, is a step the
      engine refuses: the directional tick would fail. */
  lemma ObstacleRefusesStep(boxesCount: bool, w: World, d: Direction)
    requires IsObstacleToward(boxesCount, w, d)
    ensures TickMove(w, d).plans[0].action == FailureFor(d)
  {
    var p := PlayerOf(w.objects);
    var target := Step(p.position, d);
    var i :| 0 <= i < |w.objects| && w.objects[i].id != p.id &&
             IsObstacle(boxesCount, target, w.objects[i], w.timer);
    assert BlocksMove(w.objects[i], target, w.timer);
  }

  /** The objects other than the player are neither players nor share its id
      (ids are random UUIDs). */
  predicate SinglePlayer(objs: Objects) {
    forall j :: 0 <= j < |objs| && j != PlayerIndex(objs) ==>
      !objs[j].Player? && objs[j].id != PlayerOf(objs).id
  }

  /** In the variants that count boxes, the look-ahead is exact for cells on
      the board: it reports an obstacle if and only if a step there fails. */
  lemma ObstacleExactWithBoxes(w: World, d: Direction)
    requires SinglePlayer(w.objects)
    requires InBounds(Step(PlayerOf(w.objects).position, d))
    ensures IsObstacleToward(true, w, d) <==> TickMove(w, d).plans[0].action == FailureFor(d)
  {
    var p := PlayerOf(w.objects);
    var target := Step(p.position, d);
    if TickMove(w, d).plans[0].action == FailureFor(d) {
      var j :| 0 <= j < |w.objects| && BlocksMove(w.objects[j], target, w.timer);
      StepIsUnit(p.position, d);
      assert j != PlayerIndex(w.objects);
      assert IsObstacle(true, target, w.objects[j], w.timer);
    } else {
      if IsObstacleToward(true, w, d) {
        ObstacleRefusesStep(true, w, d);
      }
    }
  }

  /** In the variant that ignores boxes, the look-ahead can miss a box that
      the engine still refuses to step onto. */
  lemma BoxInvisibleWhenBoxesIgnored()
    ensures exists w: World, d: Direction ::
              !IsObstacleToward(false, w, d) && TickMove(w, d).plans[0].action == FailureFor(d)
  {
    var objs := [Player("player-a", Pos(4, 4)), Box("box-b", Pos(3, 4))];
    assert objs[0].Player?;
    var w := World(objs, 0);
    assert PlayerIndex(objs) == 0;
    assert BlocksMove(objs[1], Pos(3, 4), 0);
    assert !IsObstacleToward(false, w, Left) && TickMove(w, Left).plans[0].action == FailureFor(Left);
  }
}

=== FILE: repeat.dfy ===
/** `repeat(conditionFn, actionFn)`: the only loop a script may run, capped at
    ten iterations so that a script always terminates. The condition and the
    action are functions of whatever state the script acts on. */
module Repeat {

  const MaxIterations: nat := 10

  /** `action` applied `n` times. */
  function Iterate<S>(action: S -> S, s: S, n: nat): S
    decreases n
  {
    if n == 0 then s else action(Iterate(action, s, n - 1))
  }

  /** The loop from iteration `count` on: test the condition first, then the
      bound, then act. */
  function RepeatFrom<S>(s: S, cond: S -> bool, action: S -> S, count: nat, state: S): (r: (S, nat))
    requires count <= MaxIterations
    requires state == Iterate(action, s, count)
    requires forall k :: 0 <= k < count ==> cond(Iterate(action, s, k))
    ensures count <= r.1 <= MaxIterations
    ensures r.0 == Iterate(action, s, r.1)
    ensures forall k :: 0 <= k < r.1 ==> cond(Iterate(action, s, k))
    ensures r.1 < MaxIterations ==> !cond(r.0)
    decreases MaxIterations - count
  {
    if cond(state) && count < MaxIterations then
      RepeatFrom(s, cond, action, count + 1, action(state))
    else
      (state, count)
  }

  /** Runs `action` while `cond` holds, at most ten times. Returns the final
      state and the number of times the action ran: the action ran only from
      states where the condition held, and the loop stopped either at the cap
      or at the first state where the condition failed. */
  function Repeat<S>(s: S, cond: S -> bool, action: S -> S): (r: (S, nat))
    ensures r.1 <= MaxIterations
    ensures r.0 == Iterate(action, s, r.1)
    ensures forall k :: 0 <= k < r.1 ==> cond(Iterate(action, s, k))
    ensures r.1 < MaxIterations ==> !cond(r.0)
  {
    RepeatFrom(s, cond, action, 0, s)
  }

  /** Whatever the action preserves, the loop preserves. */
  lemma {:induction false} RepeatPreserves<S>(s: S, cond: S -> bool, action: S -> S, inv: S -> bool)
    requires inv(s)
    requires forall t :: inv(t) ==> inv(action(t))
    ensures inv(Repeat(s, cond, action).0)
  {
    var n := Repeat(s, cond, action).1;
    IteratePreserves(s, action, inv, n);
  }

  lemma {:induction false} IteratePreserves<S>(s: S, action: S -> S, inv: S -> bool, n: nat)
    requires inv(s)
    requires forall t :: inv(t) ==> inv(action(t))
    ensures inv(Iterate(action, s, n))
    decreases n
  {
    if n > 0 {
      IteratePreserves(s, action, inv, n - 1);
    }
  }

  /** When the condition holds on the first `n` states and fails on the next
      one, within the cap, the loop runs exactly `n` times. */
  lemma RepeatRunsExactly<S>(s: S, cond: S -> bool, action: S -> S, n: nat)
    requires n <= MaxIterations
    requires forall k :: 0 <= k < n ==> cond(Iterate(action, s, k))
    requires !cond(Iterate(action, s, n))
    ensures Repeat(s, cond, action) == (Iterate(action, s, n), n)
  {
  }
}

=== FILE: session.dfy ===
/** The command layer of one game map: the energy ledger, the move-plan log
    and the functions a script calls. The module-level `timer`, `movePlan`
    and `energyHistory` of the source are the fields of one `Session`. */
module Session {
  import opened GameObject
  import opened Engine
  import Obstacle

  /** How the three game maps differ. `boxesAreObstacles`: whether the
      look-ahead counts boxes. `stayRunsTick`: whether a script's `stay()`
      runs a stay tick and logs it, or only appends an energy entry. */
  datatype Variant = Variant(boxesAreObstacles: bool, stayRunsTick: bool)

  const GameMap1 := Variant(false, false)
  const GameMap2 := Variant(true, true)
  const GameMap3 := Variant(true, true)

  /** The energy history is never empty: the start entry is appended before
      any script runs. */
  type Ledger = h: seq<int> | |h| > 0 witness [0]

  datatype Session = Session(world: World, movePlan: seq<seq<MovePlan>>, energyHistory: Ledger)

  /** The last energy value: the remaining budget. */
  function Energy(s: Session): int {
    s.energyHistory[|s.energyHistory| - 1]
  }

  /** The first log entry: a single `start` event of the player where it
      stands. */
  function StartTick(objs: Objects): seq<MovePlan> {
    [PlayerPlan(PlayerOf(objs).id, PlayerOf(objs).position, Start)]
  }

  /** What every session reachable from `createStart` on `objs` keeps: the
      start entry stays first, only the player's position has changed, and
      the energy history starts at the budget and never increases. */
  predicate Invariant(objs: Objects, s: Session) {
    && |s.movePlan| > 0
    && s.movePlan[0] == StartTick(objs)
    && SameLayout(objs, s.world.objects)
    && forall i, j :: 0 <= i <= j < |s.energyHistory| ==> s.energyHistory[j] <= s.energyHistory[i]
  }

  /** The map is loaded with the phase at 0, the log holds the start entry
      and the energy history holds the budget. */
  function CreateStart(objs: Objects, defaultEnergy: int): (s: Session)
    ensures Invariant(objs, s)
    ensures s.world == World(objs, 0)
    ensures s.movePlan == [[PlayerPlan(PlayerOf(objs).id, PlayerOf(objs).position, Start)]]
    ensures s.energyHistory == [defaultEnergy] && Energy(s) == defaultEnergy
  {
    var s := Session(World(objs, 0), [StartTick(objs)], [defaultEnergy]);
    assert SameLayout(objs, objs);
    s
  }

  /** `moveRight/Up/Left/Down`. With no energy left nothing happens at all.
      Otherwise the directional tick and a stay tick are logged and the
      energy drops by one, whether or not the step succeeded; the stay tick's
      energy entry repeats the new value. */
  function MoveCommand(s: Session, d: Direction): (r: Session)
    ensures Energy(s) <= 0 ==> r == s
    ensures Energy(s) > 0 ==>
              && |r.movePlan| == |s.movePlan| + 2
              && r.movePlan[..|s.movePlan|] == s.movePlan
              && r.energyHistory == s.energyHistory + [Energy(s) - 1, Energy(s) - 1]
              && |r.movePlan[|s.movePlan|]| == 1
              && r.movePlan[|s.movePlan|][0].PlayerPlan?
              && r.world.timer == NextPhase(s.world.timer)
    ensures forall k :: |s.energyHistory| <= k < |r.energyHistory| ==> 0 <= r.energyHistory[k] < Energy(s)
    ensures SameLayout(s.world.objects, r.world.objects)
  {
    if Energy(s) <= 0 then s
    else
      var first := Tick(s.world, Go(d));
      var second := Tick(first.world, Stay);
      SameLayoutTransitive(s.world.objects, first.world.objects, second.world.objects);
      Session(second.world, s.movePlan + [first.plans, second.plans], s.energyHistory + [Energy(s) - 1, Energy(s) - 1])
  }

  /** `stay()`. It is not gated on energy and never spends any. In game maps 2
      and 3 it runs and logs a stay tick; in game map 1 it only repeats the
      last energy value, so the phase does not move and the log falls one
      entry behind the energy history. */
  function StayCommand(v: Variant, s: Session): (r: Session)
    ensures r.energyHistory == s.energyHistory + [Energy(s)]
    ensures v.stayRunsTick ==>
              && |r.movePlan| == |s.movePlan| + 1
              && r.movePlan[..|s.movePlan|] == s.movePlan
              && r.world.timer == NextPhase(s.world.timer)
    ensures !v.stayRunsTick ==> r.movePlan == s.movePlan && r.world == s.world
    ensures SameLayout(s.world.objects, r.world.objects)
  {
    if v.stayRunsTick then
      var t := Tick(s.world, Stay);
      Session(t.world, s.movePlan + [t.plans], s.energyHistory + [Energy(s)])
    else
      assert SameLayout(s.world.objects, s.world.objects);
      Session(s.world, s.movePlan, s.energyHistory + [Energy(s)])
  }

  /** A move with energy left logs exactly the directional tick's events and
      then the stay tick's events, and leaves the world the stay tick made. */
  lemma MoveCommandLogsTicks(s: Session, d: Direction)
    requires Energy(s) > 0
    ensures var first := Tick(s.world, Go(d));
            var second := Tick(first.world, Stay);
            var r := MoveCommand(s, d);
            && r.movePlan[|s.movePlan|] == first.plans
            && r.movePlan[|s.movePlan| + 1] == second.plans
            && r.world == second.world
  {
  }

  /** Where `stay()` ticks, it logs exactly the stay tick's events and leaves
      the world that tick made. */
  lemma StayCommandLogsTick(v: Variant, s: Session)
    requires v.stayRunsTick
    ensures var t := Tick(s.world, Stay);
            var r := StayCommand(v, s);
            r.movePlan[|s.movePlan|] == t.plans && r.world == t.world
  {
  }

  /** `isObstacleRight/Left/Up/Down` of a map variant. What it reports as an
      obstacle, a move that way would bump into; where boxes count and the
      cell is on the board, it reports one exactly when the move would fail. */
  function LookAhead(v: Variant, s: Session, d: Direction): (b: bool)
    ensures b ==> Tick(s.world, Go(d)).plans[0].action == FailureFor(d)
    ensures v.boxesAreObstacles && Obstacle.SinglePlayer(s.world.objects) &&
            InBounds(Step(PlayerOf(s.world.objects).position, d)) ==>
              (b <==> Tick(s.world, Go(d)).plans[0].action == FailureFor(d))
  {
    var b := Obstacle.IsObstacleToward(v.boxesAreObstacles, s.world, d);
    assert b ==> Tick(s.world, Go(d)).plans[0].action == FailureFor(d) by {
      if b {
        Obstacle.ObstacleRefusesStep(v.boxesAreObstacles, s.world, d);
      }
    }
    assert v.boxesAreObstacles && Obstacle.SinglePlayer(s.world.objects) &&
           InBounds(Step(PlayerOf(s.world.objects).position, d)) ==>
             (b <==> Tick(s.world, Go(d)).plans[0].action == FailureFor(d)) by {
      if v.boxesAreObstacles && Obstacle.SinglePlayer(s.world.objects) &&
         InBounds(Step(PlayerOf(s.world.objects).position, d)) {
        Obstacle.ObstacleExactWithBoxes(s.world, d);
      }
    }
    b
  }

  /** A straight-line script. */
  datatype Command = MoveCmd(dir: Direction) | StayCmd

  function Apply(v: Variant, s: Session, c: Command): Session {
    match c
    case MoveCmd(d) => MoveCommand(s, d)
    case StayCmd => StayCommand(v, s)
  }

  function Run(v: Variant, s: Session, script: seq<Command>): Session
    decreases |script|
  {
    if |script| == 0 then s else Run(v, Apply(v, s, script[0]), script[1..])
  }

  /** Every command keeps the session invariant and, from a non-negative
      budget, keeps every energy entry non-negative; where `stay()` ticks,
      the log and the energy history stay the same length. */
  lemma ApplyKeepsInvariant(v: Variant, objs: Objects, s: Session, c: Command)
    requires Invariant(objs, s)
    ensures Invariant(objs, Apply(v, s, c))
    ensures (forall k :: 0 <= k < |s.energyHistory| ==> s.energyHistory[k] >= 0) ==>
              forall k :: 0 <= k < |Apply(v, s, c).energyHistory| ==> Apply(v, s, c).energyHistory[k] >= 0
    ensures v.stayRunsTick && |s.movePlan| == |s.energyHistory| ==>
              |Apply(v, s, c).movePlan| == |Apply(v, s, c).energyHistory|
  {
    var r := Apply(v, s, c);
    SameLayoutTransitive(objs, s.world.objects, r.world.objects);
    assert r.movePlan[0] == s.movePlan[0];
    assert r.energyHistory[..|s.energyHistory|] == s.energyHistory;
    forall i, j | 0 <= i <= j < |r.energyHistory|
      ensures r.energyHistory[j] <= r.energyHistory[i]
    {
      if j >= |s.energyHistory| && i < |s.energyHistory| {
        assert s.energyHistory[i] >= Energy(s);
      }
    }
  }

  /** The ledger laws for whole scripts run from `createStart`: energy never
      rises, never drops below zero from a non-negative budget, the start
      entry stays first, the objects keep their layout, and in the maps whose
      `stay()` ticks the two logs always have the same length. */
  lemma {:induction false} RunKeepsInvariant(v: Variant, objs: Objects, s: Session, script: seq<Command>)
    requires Invariant(objs, s)
    ensures Invariant(objs, Run(v, s, script))
    ensures (forall k :: 0 <= k < |s.energyHistory| ==> s.energyHistory[k] >= 0) ==>
              forall k :: 0 <= k < |Run(v, s, script).energyHistory| ==> Run(v, s, script).energyHistory[k] >= 0
    ensures v.stayRunsTick && |s.movePlan| == |s.energyHistory| ==>
              |Run(v, s, script).movePlan| == |Run(v, s, script).energyHistory|
    decreases |script|
  {
    if |script| > 0 {
      ApplyKeepsInvariant(v, objs, s, script[0]);
      RunKeepsInvariant(v, objs, Apply(v, s, script[0]), script[1..]);
    }
  }

  /** Once the budget is spent, moves change nothing: only `stay()` can still
      grow the logs. */
  lemma {:induction false} ExhaustedMovesAreNoOps(v: Variant, s: Session, ds: seq<Direction>)
    requires Energy(s) <= 0
    ensures Run(v, s, seq(|ds|, i requires 0 <= i < |ds| => MoveCmd(ds[i]))) == s
    decreases |ds|
  {
    var script := seq(|ds|, i requires 0 <= i < |ds| => MoveCmd(ds[i]));
    if |ds| > 0 {
      assert script[1..] == seq(|ds[1..]|, i requires 0 <= i < |ds[1..]| => MoveCmd(ds[1..][i]));
      ExhaustedMovesAreNoOps(v, s, ds[1..]);
    }
  }

  /** The snapshot a run hands to the renderer. */
  datatype SimulateResult = SimulateResult(objects: seq<GameObject>, movePlan: seq<seq<MovePlan>>, energyHistory: seq<int>)

  /** The index of the first event with id `id`, if any. */
  function FindById(plans: seq<MovePlan>, id: string): (k: int)
    ensures -1 <= k < |plans|
    ensures k >= 0 ==> plans[k].id == id && forall j :: 0 <= j < k ==> plans[j].id != id
    ensures k == -1 ==> forall j :: 0 <= j < |plans| ==> plans[j].id != id
    decreases |plans|
  {
    if |plans| == 0 then -1
    else if plans[0].id == id then 0
    else
      var k := FindById(plans[1..], id);
      assert forall j :: 1 <= j < |plans| ==> plans[j] == plans[1..][j - 1];
      if k == -1 then -1 else k + 1
  }

  /** The event of the first log entry that carries the player's id must
      exist and be a player event, as the non-null assertion in the source
      presumes. */
  predicate HasStartEvent(s: Session) {
    |s.movePlan| > 0 &&
    var k := FindById(s.movePlan[0], PlayerOf(s.world.objects).id);
    k >= 0 && s.movePlan[0][k].PlayerPlan?
  }

  /** `getSimulateResult`: put the player back where the first log entry
      says it started, then report the objects with that player appended
      once more, the log and the energy history. The reset is part of the
      returned session. */
  function GetSimulateResult(s: Session): (r: (Session, SimulateResult))
    requires HasStartEvent(s)
    ensures var objs := r.0.world.objects;
            && SameLayout(s.world.objects, objs)
            && PlayerOf(objs).position == s.movePlan[0][FindById(s.movePlan[0], PlayerOf(s.world.objects).id)].move
            && r.1.objects == objs + [PlayerOf(objs)]
            && r.1.movePlan == s.movePlan && r.1.energyHistory == s.energyHistory
            && r.0 == s.(world := r.0.world) && r.0.world.timer == s.world.timer
  {
    var k := FindById(s.movePlan[0], PlayerOf(s.world.objects).id);
    var objs := WithPlayerAt(s.world.objects, s.movePlan[0][k].move);
    (s.(world := s.world.(objects := objs)), SimulateResult(objs + [PlayerOf(objs)], s.movePlan, s.energyHistory))
  }

  /** After any script run from `createStart`, the snapshot shows the objects
      exactly as they were registered, followed by the player at its start
      cell. */
  lemma SnapshotRestoresStart(v: Variant, objs: Objects, e: int, script: seq<Command>)
    ensures var s := Run(v, CreateStart(objs, e), script);
            HasStartEvent(s) && GetSimulateResult(s).1.objects == objs + [PlayerOf(objs)]
  {
    var s := Run(v, CreateStart(objs, e), script);
    RunKeepsInvariant(v, objs, CreateStart(objs, e), script);
    var pid := PlayerOf(objs).id;
    assert PlayerOf(s.world.objects).id == pid;
    assert FindById(s.movePlan[0], pid) == 0;
    var r := GetSimulateResult(s).0.world.objects;
    SameLayoutTransitive(objs, s.world.objects, r);
    assert PlayerOf(r) == PlayerOf(objs);
    assert r == objs by {
      assert forall j :: 0 <= j < |r| ==> r[j] == objs[j];
    }
  }
}

=== FILE: traces.dfy ===
/** The recorded runs that close each game map file, replayed through the
    model: the map layouts, the default scripts and the logs they produce.
    Object ids keep their type tags but shorten the random suffixes, which
    the engine only ever compares for equality; each piston carries the
    phase slot recorded for it. */
module Traces {
  import opened GameObject
  import opened Engine
  import opened Session
  import Repeat
  import Obstacle

  function MoveTo(id: string, x: int, z: int): MovePlan {
    PlayerPlan(id, Pos(x, z), Moved)
  }

  function Deactivated(id: string, d: Direction): MovePlan {
    PistonPlan(id, d, Deactivate)
  }

  function Activated(id: string, d: Direction): MovePlan {
    PistonPlan(id, d, Activate)
  }

  /** A stay tick off the goals with the player `pid` at `pos`, from the
      walk it runs over the objects at phase `phase`. */
  predicate SettlesTo(objs: Objects, pid: string, pos: Pos, phase: int, st: Settling, fin: Objects) {
    && !GoalAt(objs, pos)
    && Settle(objs, phase, pid, pos, false) == st
    && WithPlayerAt(objs, st.pos) == fin
  }

  /** One `moveX` from `from` onto the free cell `to`, from the scans its two
      ticks run. */
  lemma MoveVia(s: Session, d: Direction, pid: string, from: Pos, to: Pos, mid: Objects, st: Settling, fin: Objects)
    requires Energy(s) > 0
    requires PlayerOf(s.world.objects) == Player(pid, from) && to == Step(from, d)
    requires InBounds(to) && !Blocked(s.world.objects, to, s.world.timer)
    requires WithPlayerAt(s.world.objects, to) == mid
    requires SettlesTo(mid, pid, to, NextPhase(s.world.timer), st, fin)
    ensures MoveCommand(s, d) ==
              Session(World(fin, NextPhase(s.world.timer)),
                      s.movePlan + [[PlayerPlan(pid, to, Moved)], st.plans],
                      s.energyHistory + [Energy(s) - 1, Energy(s) - 1])
  {
  }

  /** One `moveX` from `from` into a blocked cell, from the scans its two
      ticks run. */
  lemma FailVia(s: Session, d: Direction, pid: string, from: Pos, st: Settling, fin: Objects)
    requires Energy(s) > 0
    requires PlayerOf(s.world.objects) == Player(pid, from)
    requires Blocked(s.world.objects, Step(from, d), s.world.timer)
    requires SettlesTo(s.world.objects, pid, from, NextPhase(s.world.timer), st, fin)
    ensures MoveCommand(s, d) ==
              Session(World(fin, NextPhase(s.world.timer)),
                      s.movePlan + [[PlayerPlan(pid, from, FailureFor(d))], st.plans],
                      s.energyHistory + [Energy(s) - 1, Energy(s) - 1])
  {
  }

  /** One `stay()` of a map whose `stay()` ticks, with the player `pid` at
      `pos`. */
  lemma StayVia(v: Variant, s: Session, pid: string, pos: Pos, st: Settling, fin: Objects)
    requires v.stayRunsTick
    requires PlayerOf(s.world.objects) == Player(pid, pos)
    requires SettlesTo(s.world.objects, pid, pos, NextPhase(s.world.timer), st, fin)
    ensures StayCommand(v, s) ==
              Session(World(fin, NextPhase(s.world.timer)), s.movePlan + [st.plans], s.energyHistory + [Energy(s)])
  {
  }

  // ---------------------------------------------------------------------
  // game map 1: a goal and two boxes, `stay()` does not tick
  // ---------------------------------------------------------------------

  const P1 := "player-1"
  const G1 := Goal("goal-1", Pos(5, 5))
  const B1a := Box("box-1a", Pos(3, 4))
  const B1b := Box("box-1b", Pos(5, 3))

  /** The layout with the player at `p`. */
  function Map1At(p: Pos): (objs: Objects)
    ensures PlayerIndex(objs) == 1 && PlayerOf(objs) == Player(P1, p)
  {
    var objs := [G1, Player(P1, p), B1a, B1b];
    assert objs[1].Player?;
    objs
  }

  /** The four moves of the game map 1 script, each from the world the
      previous one leaves. */
  lemma Map1Move1(s: Session)
    requires s.world == World(Map1At(Pos(3, 3)), 0) && Energy(s) == 5
    ensures MoveCommand(s, Right) == Session(World(Map1At(Pos(4, 3)), 1), s.movePlan + [[MoveTo(P1, 4, 3)], []], s.energyHistory + [4, 4])
  {
    MoveVia(s, Right, P1, Pos(3, 3), Pos(4, 3), Map1At(Pos(4, 3)), Settling(Pos(4, 3), false, []), Map1At(Pos(4, 3)));
  }

  lemma Map1Move2(s: Session)
    requires s.world == World(Map1At(Pos(4, 3)), 1) && Energy(s) == 4
    ensures MoveCommand(s, Up) == Session(World(Map1At(Pos(4, 4)), 2), s.movePlan + [[MoveTo(P1, 4, 4)], []], s.energyHistory + [3, 3])
  {
    MoveVia(s, Up, P1, Pos(4, 3), Pos(4, 4), Map1At(Pos(4, 4)), Settling(Pos(4, 4), false, []), Map1At(Pos(4, 4)));
  }

  lemma Map1Move3(s: Session)
    requires s.world == World(Map1At(Pos(4, 4)), 2) && Energy(s) == 3
    ensures MoveCommand(s, Left) == Session(World(Map1At(Pos(4, 4)), 3), s.movePlan + [[PlayerPlan(P1, Pos(4, 4), FailureLeft)], []], s.energyHistory + [2, 2])
  {
    FailVia(s, Left, P1, Pos(4, 4), Settling(Pos(4, 4), false, []), Map1At(Pos(4, 4)));
  }

  lemma Map1Move4(s: Session)
    requires s.world == World(Map1At(Pos(4, 4)), 3) && Energy(s) == 2
    ensures MoveCommand(s, Down) == Session(World(Map1At(Pos(4, 3)), 4), s.movePlan + [[MoveTo(P1, 4, 3)], []], s.energyHistory + [1, 1])
  {
    MoveVia(s, Down, P1, Pos(4, 4), Pos(4, 3), Map1At(Pos(4, 3)), Settling(Pos(4, 3), false, []), Map1At(Pos(4, 3)));
  }

  /** Running a script one command at a time. */
  lemma RunStep(v: Variant, s: Session, script: seq<Command>, next: Session)
    requires |script| > 0 && Apply(v, s, script[0]) == next
    ensures Run(v, s, script) == Run(v, next, script[1..])
  {
  }

  const Map1Script := [MoveCmd(Right), MoveCmd(Up), MoveCmd(Left), MoveCmd(Down)]

  /** The script from its `k`-th command on, one lemma per suffix, each
      from the world the previous commands leave. */
  lemma Map1From3(s: Session)
    requires s.world == World(Map1At(Pos(4, 4)), 3) && Energy(s) == 2
    ensures Run(GameMap1, s, Map1Script[3..]).world == World(Map1At(Pos(4, 3)), 4)
    ensures Run(GameMap1, s, Map1Script[3..]).movePlan ==
              s.movePlan + [[MoveTo(P1, 4, 3)], []]
    ensures Run(GameMap1, s, Map1Script[3..]).energyHistory == s.energyHistory + [1, 1]
  {
    Map1Move4(s);
    RunStep(GameMap1, s, Map1Script[3..], MoveCommand(s, Down));
    assert Map1Script[3..][1..] == [];
  }

  lemma Map1From2(s: Session)
    requires s.world == World(Map1At(Pos(4, 4)), 2) && Energy(s) == 3
    ensures Run(GameMap1, s, Map1Script[2..]).world == World(Map1At(Pos(4, 3)), 4)
    ensures Run(GameMap1, s, Map1Script[2..]).movePlan ==
              s.movePlan + [[PlayerPlan(P1, Pos(4, 4), FailureLeft)], []] + [[MoveTo(P1, 4, 3)], []]
    ensures Run(GameMap1, s, Map1Script[2..]).energyHistory == s.energyHistory + [2, 2] + [1, 1]
  {
    Map1Move3(s);
    var next := MoveCommand(s, Left);
    Map1From3(next);
    RunStep(GameMap1, s, Map1Script[2..], next);
    assert Map1Script[2..][1..] == Map1Script[3..];
  }

  lemma Map1From1(s: Session)
    requires s.world == World(Map1At(Pos(4, 3)), 1) && Energy(s) == 4
    ensures Run(GameMap1, s, Map1Script[1..]).world == World(Map1At(Pos(4, 3)), 4)
    ensures Run(GameMap1, s, Map1Script[1..]).movePlan ==
              s.movePlan + [[MoveTo(P1, 4, 4)], []] + [[PlayerPlan(P1, Pos(4, 4), FailureLeft)], []] + [[MoveTo(P1, 4, 3)], []]
    ensures Run(GameMap1, s, Map1Script[1..]).energyHistory == s.energyHistory + [3, 3] + [2, 2] + [1, 1]
  {
    Map1Move2(s);
    var next := MoveCommand(s, Up);
    Map1From2(next);
    RunStep(GameMap1, s, Map1Script[1..], next);
    assert Map1Script[1..][1..] == Map1Script[2..];
  }

  /** `moveRight; moveUp; moveLeft; moveDown` from a budget of 5: the step
      left into the box at (3,4) fails at (4,4) yet still costs one energy,
      the stay ticks off the goal are empty, and the energy history reads
      5,4,4,3,3,2,2,1,1. */
  lemma Map1Trace(s0: Session)
    requires s0 == CreateStart(Map1At(Pos(3, 3)), 5)
    ensures var s := Run(GameMap1, s0, Map1Script);
            && s.movePlan == [[PlayerPlan(P1, Pos(3, 3), Start)]]
                              + [[MoveTo(P1, 4, 3)], []]
                              + [[MoveTo(P1, 4, 4)], []]
                              + [[PlayerPlan(P1, Pos(4, 4), FailureLeft)], []]
                              + [[MoveTo(P1, 4, 3)], []]
            && s.energyHistory == [5] + [4, 4] + [3, 3] + [2, 2] + [1, 1]
  {
    Map1Move1(s0);
    var next := MoveCommand(s0, Right);
    Map1From1(next);
    RunStep(GameMap1, s0, Map1Script, next);
  }

  // ---------------------------------------------------------------------
  // game map 2: two pistons pointing down, a box and two slide floors
  // ---------------------------------------------------------------------

  const P2 := "player-2"
  const K2a := "piston-2a"
  const K2b := "piston-2b"
  const G2 := Goal("goal-2", Pos(7, 2))
  const K2aAt34 := Piston(K2a, Pos(3, 4), Down, 2)
  const K2bAt64 := Piston(K2b, Pos(6, 4), Down, 1)
  const B2 := Box("box-2", Pos(4, 2))
  const F2a := SlideFloor("slideFloor-2a", Pos(2, 2), Left)
  const F2b := SlideFloor("slideFloor-2b", Pos(1, 2), Left)

  /** The layout with the player at `p`: the piston at (3,4) is out in
      phase 2, the one at (6,4) in phase 1. */
  function Map2At(p: Pos): (objs: Objects)
    ensures PlayerIndex(objs) == 1 && PlayerOf(objs) == Player(P2, p)
  {
    var objs := [G2, Player(P2, p), K2aAt34, K2bAt64, B2, F2a, F2b];
    assert objs[1].Player?;
    objs
  }

  /** A tick only ever rewrites the player's entry. */
  lemma Map2Relocate(p: Pos, q: Pos)
    ensures WithPlayerAt(Map2At(p), q) == Map2At(q)
  {
    var r := WithPlayerAt(Map2At(p), q);
    assert forall j :: 0 <= j < 7 ==> r[j] == Map2At(q)[j];
  }

  /** The only goal is at (7,2). */
  lemma Map2NoGoal(p: Pos)
    requires p != Pos(7, 2)
    ensures !GoalAt(Map2At(p), p)
  {
    var objs := Map2At(p);
    assert forall i :: 0 <= i < |objs| && objs[i].Goal? ==> i == 0;
  }

  // The scans and walks the ticks run, one lemma apiece.
  lemma Map2Free1()
    ensures !Blocked(Map2At(Pos(1, 3)), Pos(2, 3), 0)
  {}
  lemma Map2Free3()
    ensures !Blocked(Map2At(Pos(2, 3)), Pos(3, 3), 1)
  {}
  lemma Map2Box5()
    ensures Blocked(Map2At(Pos(3, 2)), Pos(4, 2), 2)
  {}
  lemma Map2Blocked5(s: Session)
    requires s.world == World(Map2At(Pos(3, 2)), 2)
    ensures Blocked(s.world.objects, Step(Pos(3, 2), Right), s.world.timer)
  {
    Map2Box5();
  }

  /** The step of a successful `moveX`, stated about the session. */
  lemma Map2Step1(s: Session)
    requires s.world == World(Map2At(Pos(1, 3)), 0)
    ensures PlayerOf(s.world.objects) == Player(P2, Pos(1, 3))
    ensures !Blocked(s.world.objects, Pos(2, 3), s.world.timer)
    ensures WithPlayerAt(s.world.objects, Pos(2, 3)) == Map2At(Pos(2, 3))
  {
    Map2Free1(); Map2Relocate(Pos(1, 3), Pos(2, 3));
  }
  lemma Map2Step3(s: Session)
    requires s.world == World(Map2At(Pos(2, 3)), 1)
    ensures PlayerOf(s.world.objects) == Player(P2, Pos(2, 3))
    ensures !Blocked(s.world.objects, Pos(3, 3), s.world.timer)
    ensures WithPlayerAt(s.world.objects, Pos(3, 3)) == Map2At(Pos(3, 3))
  {
    Map2Free3(); Map2Relocate(Pos(2, 3), Pos(3, 3));
  }

  lemma Map2Settle2()
    ensures Settle(Map2At(Pos(2, 3)), 1, P2, Pos(2, 3), false) ==
              Settling(Pos(2, 3), false, [Deactivated(K2a, Down), MoveTo(P2, 2, 3), Activated(K2b, Down)])
  {}
  lemma Map2Settle4()
    ensures Settle(Map2At(Pos(3, 3)), 2, P2, Pos(3, 3), false) ==
              Settling(Pos(3, 2), false, [MoveTo(P2, 3, 2), Activated(K2a, Down), Deactivated(K2b, Down)])
  {}
  lemma Map2Settle6()
    ensures Settle(Map2At(Pos(3, 2)), 3, P2, Pos(3, 2), false) ==
              Settling(Pos(3, 2), false, [Deactivated(K2a, Down), Deactivated(K2b, Down)])
  {}

  /** The stay tick of each `moveX`: the walk, the goal scan and the
      relocation together. */
  lemma Map2Settles2()
    ensures SettlesTo(Map2At(Pos(2, 3)), P2, Pos(2, 3), 1, Settling(Pos(2, 3), false, [Deactivated(K2a, Down), MoveTo(P2, 2, 3), Activated(K2b, Down)]), Map2At(Pos(2, 3)))
  {
    Map2Relocate(Pos(2, 3), Pos(2, 3)); Map2Settle2(); Map2NoGoal(Pos(2, 3));
  }
  lemma Map2Settles4()
    ensures SettlesTo(Map2At(Pos(3, 3)), P2, Pos(3, 3), 2, Settling(Pos(3, 2), false, [MoveTo(P2, 3, 2), Activated(K2a, Down), Deactivated(K2b, Down)]), Map2At(Pos(3, 2)))
  {
    Map2Relocate(Pos(3, 3), Pos(3, 2)); Map2Settle4(); Map2NoGoal(Pos(3, 3));
  }
  lemma Map2Settles6()
    ensures SettlesTo(Map2At(Pos(3, 2)), P2, Pos(3, 2), 3, Settling(Pos(3, 2), false, [Deactivated(K2a, Down), Deactivated(K2b, Down)]), Map2At(Pos(3, 2)))
  {
    Map2Relocate(Pos(3, 2), Pos(3, 2)); Map2Settle6(); Map2NoGoal(Pos(3, 2));
  }

  /** Each `moveX` stated about the session it starts from. */
  lemma Map2Ready1(s: Session)
    requires s.world == World(Map2At(Pos(1, 3)), 0)
    ensures PlayerOf(s.world.objects) == Player(P2, Pos(1, 3))
    ensures !Blocked(s.world.objects, Pos(2, 3), s.world.timer)
    ensures WithPlayerAt(s.world.objects, Pos(2, 3)) == Map2At(Pos(2, 3))
    ensures SettlesTo(Map2At(Pos(2, 3)), P2, Pos(2, 3), NextPhase(s.world.timer),
                      Settling(Pos(2, 3), false, [Deactivated(K2a, Down), MoveTo(P2, 2, 3), Activated(K2b, Down)]),
                      Map2At(Pos(2, 3)))
  {
    Map2Step1(s); Map2Settles2();
  }
  lemma Map2Ready2(s: Session)
    requires s.world == World(Map2At(Pos(2, 3)), 1)
    ensures PlayerOf(s.world.objects) == Player(P2, Pos(2, 3))
    ensures !Blocked(s.world.objects, Pos(3, 3), s.world.timer)
    ensures WithPlayerAt(s.world.objects, Pos(3, 3)) == Map2At(Pos(3, 3))
    ensures SettlesTo(Map2At(Pos(3, 3)), P2, Pos(3, 3), NextPhase(s.world.timer),
                      Settling(Pos(3, 2), false, [MoveTo(P2, 3, 2), Activated(K2a, Down), Deactivated(K2b, Down)]),
                      Map2At(Pos(3, 2)))
  {
    Map2Step3(s); Map2Settles4();
  }
  lemma Map2Ready3(s: Session)
    requires s.world == World(Map2At(Pos(3, 2)), 2)
    ensures PlayerOf(s.world.objects) == Player(P2, Pos(3, 2))
    ensures Blocked(s.world.objects, Step(Pos(3, 2), Right), s.world.timer)
    ensures SettlesTo(s.world.objects, P2, Pos(3, 2), NextPhase(s.world.timer),
                      Settling(Pos(3, 2), false, [Deactivated(K2a, Down), Deactivated(K2b, Down)]),
                      Map2At(Pos(3, 2)))
  {
    Map2Blocked5(s); Map2Settles6();
  }

  /** `moveRight` from (1,3) at phase 0: the piston at (6,4) activates away
      from the player, which is still reported, at the cell it holds. */
  lemma Map2Move1(s: Session)
    requires s.world == World(Map2At(Pos(1, 3)), 0) && Energy(s) == 7
    ensures MoveCommand(s, Right) ==
              Session(World(Map2At(Pos(2, 3)), 1),
                      s.movePlan + [[MoveTo(P2, 2, 3)], [Deactivated(K2a, Down), MoveTo(P2, 2, 3), Activated(K2b, Down)]],
                      s.energyHistory + [6, 6])
  {
    Map2Ready1(s);
    MoveVia(s, Right, P2, Pos(1, 3), Pos(2, 3), Map2At(Pos(2, 3)),
            Settling(Pos(2, 3), false, [Deactivated(K2a, Down), MoveTo(P2, 2, 3), Activated(K2b, Down)]), Map2At(Pos(2, 3)));
  }

  lemma Map2Clear()
    ensures !Obstacle.AnyObstacle(true, Map2At(Pos(2, 3)), P2, Pos(3, 3), 1)
  {}

  /** At phase 1 the cell right of (2,3) is free: the loop body never runs. */
  lemma Map2NoObstacle(s: Session)
    requires s.world == World(Map2At(Pos(2, 3)), 1)
    ensures !LookAhead(GameMap2, s, Right)
  {
    Map2Clear();
  }

  /** `moveRight` onto (3,3), the head cell of the piston at (3,4), which
      activates in phase 2 and pushes the player down to (3,2). */
  lemma Map2Move2(s: Session)
    requires s.world == World(Map2At(Pos(2, 3)), 1) && Energy(s) == 6
    ensures MoveCommand(s, Right) ==
              Session(World(Map2At(Pos(3, 2)), 2),
                      s.movePlan + [[MoveTo(P2, 3, 3)], [MoveTo(P2, 3, 2), Activated(K2a, Down), Deactivated(K2b, Down)]],
                      s.energyHistory + [5, 5])
  {
    Map2Ready2(s);
    MoveVia(s, Right, P2, Pos(2, 3), Pos(3, 3), Map2At(Pos(3, 3)),
            Settling(Pos(3, 2), false, [MoveTo(P2, 3, 2), Activated(K2a, Down), Deactivated(K2b, Down)]), Map2At(Pos(3, 2)));
  }

  /** `moveRight` into the box at (4,2): `failure-right` at (3,2), and the
      energy is spent all the same. */
  lemma Map2Move3(s: Session)
    requires s.world == World(Map2At(Pos(3, 2)), 2) && Energy(s) == 5
    ensures MoveCommand(s, Right) ==
              Session(World(Map2At(Pos(3, 2)), 3),
                      s.movePlan + [[PlayerPlan(P2, Pos(3, 2), FailureRight)], [Deactivated(K2a, Down), Deactivated(K2b, Down)]],
                      s.energyHistory + [4, 4])
  {
    Map2Ready3(s);
    FailVia(s, Right, P2, Pos(3, 2), Settling(Pos(3, 2), false, [Deactivated(K2a, Down), Deactivated(K2b, Down)]), Map2At(Pos(3, 2)));
  }

  const Map2Tail := [MoveCmd(Right), MoveCmd(Right)]

  /** The two `moveRight` after the loop. */
  lemma Map2FromTail(s: Session)
    requires s.world == World(Map2At(Pos(2, 3)), 1) && Energy(s) == 6
    ensures Run(GameMap2, s, Map2Tail).world == World(Map2At(Pos(3, 2)), 3)
    ensures Run(GameMap2, s, Map2Tail).movePlan ==
              s.movePlan + [[MoveTo(P2, 3, 3)], [MoveTo(P2, 3, 2), Activated(K2a, Down), Deactivated(K2b, Down)]] + [[PlayerPlan(P2, Pos(3, 2), FailureRight)], [Deactivated(K2a, Down), Deactivated(K2b, Down)]]
    ensures Run(GameMap2, s, Map2Tail).energyHistory == s.energyHistory + [5, 5] + [4, 4]
  {
    Map2Move2(s);
    var next := MoveCommand(s, Right);
    Map2Move3(next);
    RunStep(GameMap2, s, Map2Tail, next);
    RunStep(GameMap2, next, Map2Tail[1..], MoveCommand(next, Right));
    assert Map2Tail[1..][1..] == [];
  }

  /** The loop condition `isObstacleRight()` of game map 2. */
  function ObstacleRight2(s: Session): bool {
    LookAhead(GameMap2, s, Right)
  }

  /** The loop body `stay()` of game map 2. */
  function Stay2(s: Session): Session {
    StayCommand(GameMap2, s)
  }

  /** `moveRight; repeat(isObstacleRight, stay); moveRight; moveRight` from a
      budget of 7. The loop body never runs; the piston at (6,4) activates
      away from the player, the piston at (3,4) pushes the player from (3,3)
      down to (3,2), and the last step fails against the box at (4,2) yet
      costs one energy: 7,6,6,5,5,4,4. */
  lemma Map2Trace(s0: Session)
    requires s0 == CreateStart(Map2At(Pos(1, 3)), 7)
    ensures var r := Repeat.Repeat(MoveCommand(s0, Right), ObstacleRight2, Stay2);
            var s := Run(GameMap2, r.0, Map2Tail);
            && r.1 == 0
            && s.movePlan == [[PlayerPlan(P2, Pos(1, 3), Start)]]
                              + [[MoveTo(P2, 2, 3)], [Deactivated(K2a, Down), MoveTo(P2, 2, 3), Activated(K2b, Down)]]
                              + [[MoveTo(P2, 3, 3)], [MoveTo(P2, 3, 2), Activated(K2a, Down), Deactivated(K2b, Down)]]
                              + [[PlayerPlan(P2, Pos(3, 2), FailureRight)], [Deactivated(K2a, Down), Deactivated(K2b, Down)]]
            && s.energyHistory == [7] + [6, 6] + [5, 5] + [4, 4]
  {
    Map2Move1(s0);
    var s1 := MoveCommand(s0, Right);
    Map2NoObstacle(s1);
    Repeat.RepeatRunsExactly(s1, ObstacleRight2, Stay2, 0);
    Map2FromTail(s1);
  }
}
